=== FILE: README.md ===
# COVID tracking ingestion core, modelled in Dafny

This project models the data-ingestion core of the COVID tracking analysis
scripts. The core has two halves:

- **The cache-fill loops of `covid_data_query.main`.** For every day from
  2020-03-01 through "now" (`DATES`), the loops fetch `YYYYMMDD.json` from
  the COVID Tracking Project API. They do this for the USA aggregate
  (`us/`) and for every listed state (`states/<code>/`). A file is fetched
  only when it is not already cached, and a missing directory is created
  first.
- **The time-series loaders `load_df_us` and `load_df_state`.** They read
  every cached snapshot and drop records without a `date`. Each integer
  token `YYYYMMDD` becomes a calendar date through the text
  `str(x)[0:4]-str(x)[4:6]-str(x)[6:8]`. The rows are then sorted by date.
  Optionally, negative values in the six count columns are replaced by
  NaN.

Modules:

- `Wrappers` holds `Option` and `Result`.
- `Text` covers decimal digits, Python's `str(int)`, Python slicing with
  clamped bounds, and ASCII upper and lower case.
- `Calendar` covers proleptic Gregorian dates, the next day, the inclusive
  daily range, `%Y%m%d` formatting, and parsing of the `Y-M-D` text built
  from a token.
- `Loader` models the two loaders over snapshots that have already been
  read.
- `Download` models the cache on disk as a set of file names per
  directory. Whether `curl` produced the file is an oracle
  `fetch: Target -> bool`.

The loaded table is sorted by date but not de-duplicated: two snapshots
for the same day both survive, so the table need not be strictly
ascending. The sort is pandas' default quicksort, which is not stable. So
the loader promises a table that is sorted by date and is a permutation of
the cleaned rows, and nothing about the order of equal dates.

A `curl` that produces no file makes the next `os.rename` raise, which
aborts the whole run, including the states loop. `Run.completed` records
this.

## Model

| member | source | states |
|---|---|---|
| Loader.DropUndated | code/covid_utils.py:34 | `dropna(subset=['date'])`: the kept records are exactly the dated ones, each with its original multiplicity |
| Loader.DropUndatedEmpty | code/covid_utils.py:34 | nothing survives the filter iff no record carries a date |
| Loader.ParseDates | code/covid_utils.py:36 | each dated token becomes the date read from its `Y-M-D` text, and the other columns are untouched; a failure names a token whose text is not a valid date written with exactly 4, 2 and 2 digits |
| Calendar.ParseYmd | code/covid_utils.py:36 | reading `s[0:4]-s[4:6]-s[6:8]` as a date succeeds iff the first eight characters are digits that give a valid date; the date is then year `s[0:4]`, month `s[4:6]`, day `s[6:8]`, with a year of at most 9999 |
| Calendar.DateOfToken | code/covid_utils.py:77 | a token read as a date is positive, and its date has a year from 1000 to 9999 |
| Text.DecimalString | code/covid_utils.py:36 | `str(x)`: a `-` exactly when `x` is negative, then the digits of the absolute value with no leading zero, which read back as that value |
| Loader.ParseTokens | code/covid_utils.py:77 | the per-row date conversion for any parser: a failure names an unparseable token, and a success keeps row count, order and the other columns |
| Loader.ParseDatesSucceeds | code/covid_utils.py:36 | the conversion succeeds iff every token's text is a valid date |
| Loader.DatedTokensParse | code/covid_utils.py:34-36 | after dropping undated records, conversion succeeds iff every dated record of the input has a valid token |
| Calendar.ParseFormat | code/covid_utils.py:36 | reading back the `YYYYMMDD` text of a date gives the date |
| Calendar.TokenRoundTrip | code/covid_utils.py:36 | for a four-digit year, the slices `[0:4]`, `[4:6]`, `[6:8]` of `str(YYYYMMDD)` give back the date the token was built from |
| Calendar.FormatOfParse | code/covid_utils.py:77 | a text that parses is the `YYYYMMDD` formatting of the parsed date |
| Calendar.TokenOfDateOfToken | code/covid_utils.py:77 | an eight-digit token that parses is the token of its parsed date |
| Loader.Insert | code/covid_utils.py:40 | inserting into a date-sorted table keeps it sorted and adds exactly that row |
| Loader.SortByDate | code/covid_utils.py:82 | `sort_values(by=['date'])`: the result is sorted by date and is a permutation of the input |
| Loader.CleanTable | code/covid_utils.py:42-45 | with the flag on, a negative count in one of the six columns becomes NaN and every other cell is kept; with the flag off, every cell is kept |
| Loader.CleanLeavesNoNegatives | code/covid_utils.py:84-87 | after cleaning, no cleaned column holds a negative value |
| Loader.CleanNeverZeroFills | code/covid_utils.py:84-87 | cleaning never produces a zero that was not there, keeps every non-negative or missing value, and blanks a negative value when asked |
| Loader.CleanDisabledIsIdentity | code/covid_utils.py:42 | with the flag off the table is returned unchanged |
| Loader.CleanIdempotent | code/covid_utils.py:42-45 | cleaning twice equals cleaning once |
| Loader.CleanCommutesWithSort | code/covid_utils.py:40-45 | cleaning before or after the sort gives the same table |
| Loader.SortAndClean | code/covid_utils.py:82-87 | the result is sorted, keeps every row, is a permutation of the cleaned rows, and with the flag on holds no negative count |
| Loader.LoadSnapshots | code/covid_utils.py:74-89 | fails with a missing date column iff no record is dated; succeeds iff some record is dated and every dated token parses; on success the table is sorted, has one row per dated record, is a permutation of the cleaned parsed rows, and has no negatives when asked |
| Loader.LoadUs | code/covid_utils.py:22-47 | `load_df_us` never reports an invalid state; it reports a missing date column iff no record is dated; it succeeds iff some record is dated and every dated token reads as a date; a success is sorted by date, has one row per dated record, is a permutation of the parsed dated rows after cleaning, and holds no negative count when asked to remove them |
| Loader.KnownState | code/covid_utils.py:67-68 | a known state's code is itself a listed entry name (non-empty, not hidden, no path separator) whose upper-cased form is an entry of `states/` |
| Loader.LoadState | code/covid_utils.py:66-71 | rejected as invalid iff the upper-cased code is not a listed entry of `states/`; otherwise it loads that directory's snapshots |
| Loader.RejectsBeforeReading | code/covid_utils.py:67-68 | an unknown state is rejected whatever the snapshot files contain |
| Loader.StateCodeCaseInsensitive | code/covid_utils.py:67-71 | codes equal up to letter case load the same result |
| Calendar.DatesThrough | code/covid_data_query.py:15 | the daily range from the start date: empty iff the end is before the start, first element the start, each next element the next day, no element past the end, and the day after the last is past the end |
| Calendar.NextDay | code/covid_data_query.py:15 | the next day is a valid date after the given one |
| Calendar.NextDayIsImmediate | code/covid_data_query.py:15 | no date lies strictly between a day and its next day |
| Download.Dates | code/covid_data_query.py:15 | `DATES` starts on 2020-03-01 and steps one day at a time; every day is valid and not after `end`, and the day after the last is after `end`; it is empty iff `end` precedes 2020-03-01 |
| Calendar.FormatYmd | code/covid_data_query.py:31 | `d.strftime('%Y%m%d')` is eight digits |
| Download.FileName | code/covid_data_query.py:59 | the cache file name is the `%Y%m%d` text of the day followed by `.json`, thirteen characters in all |
| Download.FileNameShape | code/covid_data_query.py:31 | a file name is eight digits followed by `.json` |
| Download.FileNameInjective | code/covid_data_query.py:59 | distinct days get distinct file names |
| Download.FileNameMatchesLoader | code/covid_data_query.py:31 | the file-name stem is `str` of the day's token, and the loader reads that token back as the same day |
| Download.UrlIdentifiesTarget | code/covid_data_query.py:34 | two equal request URLs ask for the same day and the same scope, up to the state code's letter case |
| Download.Url | code/covid_data_query.py:62 | the request URL starts with the API address and ends with the cache file name |
| Download.Accepts | code/covid_data_query.py:22 | `choice.lower() in ['yes', 'y']`, also at line 42: an answer is accepted iff it is one letter `y`, or three letters `y`, `e`, `s`, each in either ASCII case |
| Download.AcceptsIgnoresCase | code/covid_data_query.py:22 | the prompt answer (`choice.lower() in ['yes', 'y']`) is judged without regard to letter case |
| Download.EnsureDir | code/covid_data_query.py:26-28 | afterwards the directory exists and no other directory was created; an existing directory is left as it is; no file appears or disappears |
| Download.EnsureStatesRoot | code/covid_data_query.py:45-47 | afterwards `states/` exists, the cache is otherwise unchanged, and an existing `states/` is left as it is |
| Download.Has | code/covid_data_query.py:32 | `os.path.exists` on the day's file in the scope directory, also at line 60: a cached file means its scope directory exists and is not empty |
| Download.AddFile | code/covid_data_query.py:36 | `os.rename` adds exactly one file to the scope directory |
| Download.VisitTarget | code/covid_data_query.py:53-64 | a day is skipped iff its file is cached; otherwise it is fetched, or it fails iff `curl` produced no file; only the requested file is added, and only the scope's directory may be created |
| Download.Execute | code/covid_data_query.py:23-36 | every request comes from the plan, nothing is removed from the cache, and a finished run leaves every planned file cached |
| Download.ExecuteNeverOverwrites | code/covid_data_query.py:32 | every request is for a file absent before the run |
| Download.ExecuteOnlyFetched | code/covid_data_query.py:32-36 | every file that appears was requested and produced by `curl` |
| Download.ExecuteStopsAtFailure | code/covid_data_query.py:35-36 | every request but the last succeeded; a finished run had no failure, and an aborted run ends at the failed request |
| Download.ExecuteKeepsDirs | code/covid_data_query.py:26-28 | no directory disappears, `states/` is untouched by the loop, and the only directories that can appear are those of the plan's scopes |
| Download.ExecuteAscends | code/covid_data_query.py:23 | over a plan in date order, requests are issued in date order |
| Download.ExecuteKeepsFetched | code/covid_data_query.py:32-36 | every request that `curl` answered has its file cached afterwards, also in a run that stopped early: a fetched file is moved into place at once, so partial progress is kept |
| Download.ExecuteIssuesMissing | code/covid_data_query.py:30-36 | a finished run over a plan without repeats issues exactly the missing targets, in plan order |
| Download.ExecuteIssuesMissingPrefix | code/covid_data_query.py:30-36 | on a plan without repeats, any run, finished or stopped early, issued the missing targets in plan order up to where it stopped, skipping none |
| Download.AllPresentIsIdle | code/covid_data_query.py:32 | a plan whose files are all cached issues nothing and changes nothing |
| Download.SecondRunIsIdle | code/covid_data_query.py:30-36 | re-running a finished loop issues no request, whatever the network does |
| Download.MissingPerScope | code/covid_data_query.py:54-60 | which files of a scope are missing depends only on that scope's directory |
| Download.UsPlan | code/covid_data_query.py:23 | the USA loop visits `us/` once per day, in day order |
| Download.UsPlanShape | code/covid_data_query.py:23 | over ascending days the USA plan has no repeats and is in date order |
| Download.StatePlan | code/covid_data_query.py:49-51 | the states loop has one step per day for every state: its length is the number of days times the number of states |
| Download.StatePlanFirstDay | code/covid_data_query.py:49-51 | the states loop opens with every listed state, in the listed order, on the first day |
| Download.StatePlanOrder | code/covid_data_query.py:49-51 | with `n` listed states, entry `i * n + j` of the states loop is state `j` on day `i`: days outside, states inside, every day in the listed order |
| Download.DayBlock | code/covid_data_query.py:51 | for one day, the inner loop visits each listed state once, in list order |
| Download.StatePlanMembers | code/covid_data_query.py:49-51 | a (day, scope) is visited iff the day is in `DATES` and the scope is a listed state |
| Download.StatePlanAscends | code/covid_data_query.py:49 | the states loop visits days in ascending order |
| Download.StatePlanDistinct | code/covid_data_query.py:49-51 | with distinct state codes, each (day, state) is visited exactly once |
| Download.UsRunCovers | code/covid_data_query.py:23-36 | a finished USA loop caches every day of the range in `us/` and requests only USA files |
| Download.StateRunCovers | code/covid_data_query.py:49-64 | a finished states loop caches every day for every listed state and requests only state files |
| Download.FillUs | code/covid_data_query.py:22-36 | the USA half requests only missing USA files for days of `DATES`, in date order, and stops at the first failure; every new file was requested and produced; `states/` is untouched; every file `curl` produced stays cached, also when it stops early; at most `us/` is created; if it finishes, `us/` holds every day of `DATES` |
| Download.FillStates | code/covid_data_query.py:42-64 | the states half creates `states/`, requests only missing files of listed states for days of `DATES`, in date order, and stops at the first failure; every new file was requested and produced; every file `curl` produced stays cached, also when it stops early; only listed states' directories can appear; if it finishes, every listed state holds every day |
| Download.FillUsIdle | code/covid_data_query.py:23-32 | when `us/` already holds every day, the USA half issues nothing |
| Download.FillStatesIdle | code/covid_data_query.py:49-60 | when every state already holds every day, the states half issues nothing |
| Download.ChainRuns | code/covid_data_query.py:21-42 | the states half after a finished USA half still requests only files absent at the start, and still stops at the first failure |
| Download.Query | code/covid_data_query.py:18-65 | `main` requests only files absent at the start, for days of `DATES` and for the USA or listed states, and only for the branches answered yes; it removes nothing, and every new file was requested and produced; `states/` is created only when the states branch is accepted; each accepted branch that finishes leaves its whole range cached; answering no to both does nothing; the run stops at the first failed download; with both accepted, the states half starts only after the USA half finished: a state request, or a newly created `states/`, means `us/` holds every day; every file `curl` produced stays cached, also when the run stops early; the only directories that can appear are `us/` and the listed states' directories, each only when its branch is accepted |
| Download.QueryIdle | code/covid_data_query.py:18-65 | `main` over a cache that already holds every day for each accepted branch (and `states/` when the states branch is accepted) issues no request and changes nothing, whatever the network does |
| Download.QueryRerunIsIdle | code/covid_data_query.py:18-65 | a second run with the same answers after a finished run issues zero requests |
| Text.NaturalStringOfParse | code/covid_utils.py:36 | `str` of a parsed digit string without a leading zero gives back the string |
| Text.ParseNaturalString | code/covid_utils.py:36 | parsing `str(n)` gives back `n` |
| Text.DigitsOfParse | code/covid_data_query.py:31 | zero-padded formatting of a parsed digit string gives back the string |
| Text.ParseDigitsOf | code/covid_data_query.py:31 | parsing a zero-padded field gives back its number |
| Text.Upper | code/covid_utils.py:67-71 | `state.upper()`: same length, each ASCII lower-case letter replaced by its capital, every other character kept |
| Text.Lower | code/covid_data_query.py:22 | `answer.lower()` (also the state code in the URL, line 62): same length, each ASCII capital replaced by its lower-case letter, every other character kept |
| Text.CaseMapsSettle | code/covid_data_query.py:62 | upper-casing is idempotent, lower-casing is idempotent, and lower-casing forgets an earlier upper-casing |
| Text.Slice | code/covid_utils.py:36 | `str(x)[i:j]` clamps both bounds to the string and copies the characters in between |

## Left out

- Reading files (`glob`, `open`, `json.load`) and writing them (`curl -O`, `os.rename`, `os.mkdir`). The loaders take the snapshots already read. The downloader takes the cache as a set of file names per directory, and a boolean oracle says whether `curl` produced the file. `curl`'s exit code is ignored by the code, so it is not modelled either.
- `datetime.now()`: the end of `DATES` is a parameter.
- The `input` prompts: the answers are string parameters.
- Progress output on stdout.
- `INFO_STATES`, read from `info_states.json`: it is a parameter list of codes.
- The auxiliary timestamp columns (`dateChecked`, `lastModified`, `dateModified`, `lastUpdateEt`). They are carried as opaque text and are not parsed, and a parse failure there is not modelled.
- A count column missing from every record, which in pandas raises `KeyError`: the model treats an absent key like NaN.
- pandas' distinction between an absent key and an explicit `null`: both are `None`.
- Count columns as floats: counts are integers or NaN.
- A date token that is a float, e.g. `20200301.0`, or a string: tokens are integers.
- Calendar.ParseYmd: reads the `Y-M-D` text strictly, with exactly 4, 2 and 2 digits, and any valid year from 1 to 9999; pandas' date reader is more lenient (e.g. it may read `2020-03-1` as 2020-03-01) and limits years to the `Timestamp` range. The API sends eight-digit tokens, which both read alike.
- Calendar.DateOfToken: does not model pandas' `Timestamp` range (years 1677 to 2262); the model accepts every valid date whose year is from 1000 to 9999, the years an eight-digit `str` of a positive token can spell. Through Calendar.ParseYmd it rejects a token shorter than eight digits, e.g. `2020031`, whose text `2020-03-1` pandas may read as 2020-03-01.
- Loader.ParseDates: fails on a token whose text is not a 4-2-2-digit date, e.g. `2020031`, although pandas' more lenient date reader may accept such text; see Calendar.DateOfToken.
- Loader.LoadUs: the flag `remove_negative_cases_deaths` defaults to `True` in the source; the model has no default arguments, so callers pass it explicitly. The same holds for Loader.LoadState.
- Calendar.TokenRoundTrip: is stated only for years from 1000 onwards, because smaller years give a token text shorter than eight characters.
- Text.Upper: maps ASCII letters only, while Python's `str.upper` also maps other letters.
- Text.Lower: maps ASCII letters only, while Python's `str.lower` also maps other letters.
- Loader.SortByDate: promises sortedness and a permutation but not the order among equal dates, because pandas' default quicksort is not stable.
- Plotting and analysis functions outside the two loaders and `main`.

=== FILE: calendar.dfy ===
/** Proleptic Gregorian calendar dates, the daily `DATES` range, the
    `%Y%m%d` formatting of cache file names, and the loader's decomposition
    of the integer `date` token into year, month and day. */
module Calendar {
  import opened Wrappers
  import opened Text

  datatype Date = Date(year: int, month: int, day: int)

  predicate IsLeapYear(y: int) {
    y % 4 == 0 && (y % 100 != 0 || y % 400 == 0)
  }

  function DaysInMonth(y: int, m: int): (n: int)
    requires 1 <= m <= 12
    ensures 28 <= n <= 31
  {
    if m == 2 then (if IsLeapYear(y) then 29 else 28)
    else if m == 4 || m == 6 || m == 9 || m == 11 then 30
    else 31
  }

  /** A real calendar day (year 1 onwards). */
  predicate Valid(d: Date) {
    1 <= d.year && 1 <= d.month <= 12 && 1 <= d.day <= DaysInMonth(d.year, d.month)
  }

  /** A date whose `%Y` field is four digits wide. */
  predicate FourDigitYear(d: Date) {
    Valid(d) && d.year <= 9999
  }

  /** Chronological order: `a` is strictly earlier than `b`. */
  predicate Before(a: Date, b: Date) {
    a.year < b.year
    || (a.year == b.year && (a.month < b.month || (a.month == b.month && a.day < b.day)))
  }

  /** A rank that grows with `Before` on valid dates (used as a termination
      measure only; it is not a day count). */
  function Rank(d: Date): int {
    d.year * 500 + d.month * 32 + d.day
  }

  lemma {:induction false} RankMonotone(a: Date, b: Date)
    requires Valid(a) && Valid(b)
    ensures Before(a, b) <==> Rank(a) < Rank(b)
  {
  }

  /** The following calendar day. */
  function NextDay(d: Date): (r: Date)
    requires Valid(d)
    ensures Valid(r) && Before(d, r)
  {
    if d.day < DaysInMonth(d.year, d.month) then Date(d.year, d.month, d.day + 1)
    else if d.month < 12 then Date(d.year, d.month + 1, 1)
    else Date(d.year + 1, 1, 1)
  }

  /** `NextDay` skips no day: no valid date lies strictly between a day
      and its successor. */
  lemma {:induction false} NextDayIsImmediate(d: Date, e: Date)
    requires Valid(d) && Valid(e)
    ensures Before(d, e) ==> !Before(e, NextDay(d))
  {
  }

  /** The daily range `pandas.date_range(start, end, freq='1D')`: every day
      from `start` up to and including `end`, empty when `end` is earlier. */
  function DatesThrough(start: Date, end: Date): (r: seq<Date>)
    requires Valid(start) && Valid(end)
    ensures r == [] <==> Before(end, start)
    ensures r != [] ==> r[0] == start
    ensures forall i :: 0 <= i < |r| ==> Valid(r[i]) && !Before(end, r[i])
    ensures forall i :: 0 <= i < |r| - 1 ==> r[i + 1] == NextDay(r[i])
    ensures r != [] ==> Before(end, NextDay(r[|r| - 1]))
    ensures forall i, j :: 0 <= i < j < |r| ==> Before(r[i], r[j])
    decreases Rank(end) - Rank(start)
  {
    if Before(end, start) then []
    else
      var next := NextDay(start);
      RankMonotone(start, next);
      var rest := DatesThrough(next, end);
      [start] + rest
  }

  /** `d.strftime('%Y%m%d')`: four-digit year, two-digit month and day. */
  function FormatYmd(d: Date): (s: string)
    requires FourDigitYear(d)
    ensures |s| == 8 && AllDigits(s)
  {
    Digits(d.year, 4) + Digits(d.month, 2) + Digits(d.day, 2)
  }

  /** The integer the remote API puts in a snapshot's `date` key. */
  function TokenOf(d: Date): int {
    d.year * 10000 + d.month * 100 + d.day
  }

  /** The loader's date conversion on the text of a token: characters
      [0:4], [4:6] and [6:8] become year, month and day; the joined
      `Y-M-D` text must be a real date, otherwise the parse fails. */
  function ParseYmd(s: string): (r: Option<Date>)
    ensures r.Some? ==> Valid(r.value) && r.value.year <= 9999
    ensures r.Some? ==> |s| >= 8 && AllDigits(s[..8])
    ensures r.Some? ==> r.value == Date(ParseDigits(s[..4]), ParseDigits(s[4..6]), ParseDigits(s[6..8]))
    ensures (|s| >= 8 && AllDigits(s[..8])
             && Valid(Date(ParseDigits(s[..4]), ParseDigits(s[4..6]), ParseDigits(s[6..8])))) ==> r.Some?
  {
    var y, m, d := Slice(s, 0, 4), Slice(s, 4, 6), Slice(s, 6, 8);
    if |y| == 4 && |m| == 2 && |d| == 2 && AllDigits(y) && AllDigits(m) && AllDigits(d) then
      var date := Date(ParseDigits(y), ParseDigits(m), ParseDigits(d));
      ParseBound(y);
      assert Pow10(4) == 10000;
      if Valid(date) then
        assert forall k :: 0 <= k < 8 ==> s[k] == (if k < 4 then y[k] else if k < 6 then m[k - 4] else d[k - 6]);
        Some(date)
      else None
    else None
  }

  /** `str(x)[0:4]`, `str(x)[4:6]`, `str(x)[6:8]` parsed as a date. */
  function DateOfToken(x: int): (r: Option<Date>)
    ensures r.Some? ==> x > 0 && FourDigitYear(r.value)
    ensures r.Some? ==> r.value.year >= 1000
  {
    var s := DecimalString(x);
    assert s[0] == '-' <==> x < 0;
    var r := ParseYmd(s);
    assert r.Some? ==> r.value.year >= 1000 by {
      if r.Some? {
        assert s[..4][0] == s[0] != '0';
        ParseLeadingBound(s[..4]);
        assert Pow10(3) == 1000;
      }
    }
    r
  }

  lemma {:induction false} FormatSlices(d: Date)
    requires FourDigitYear(d)
    ensures Slice(FormatYmd(d), 0, 4) == Digits(d.year, 4)
    ensures Slice(FormatYmd(d), 4, 6) == Digits(d.month, 2)
    ensures Slice(FormatYmd(d), 6, 8) == Digits(d.day, 2)
  {
  }

  /** Decomposing a formatted date gives the same year, month and day. */
  lemma {:induction false} ParseFormat(d: Date)
    requires FourDigitYear(d)
    ensures ParseYmd(FormatYmd(d)) == Some(d)
  {
    FormatSlices(d);
    assert Pow10(4) == 10000 && Pow10(2) == 100;
    ParseDigitsOf(d.year, 4);
    ParseDigitsOf(d.month, 2);
    ParseDigitsOf(d.day, 2);
  }

  /** Formatting is injective: distinct days get distinct `%Y%m%d` text. */
  lemma {:induction false} FormatInjective(a: Date, b: Date)
    requires FourDigitYear(a) && FourDigitYear(b)
    ensures FormatYmd(a) == FormatYmd(b) ==> a == b
  {
    ParseFormat(a);
    ParseFormat(b);
  }

  /** The formatted text of a date reads back as its integer token. */
  lemma {:induction false} ParseFormatIsToken(d: Date)
    requires FourDigitYear(d)
    ensures ParseDigits(FormatYmd(d)) == TokenOf(d)
  {
    var y, m, dd := Digits(d.year, 4), Digits(d.month, 2), Digits(d.day, 2);
    assert Pow10(4) == 10000 && Pow10(2) == 100;
    ParseDigitsOf(d.year, 4);
    ParseDigitsOf(d.month, 2);
    ParseDigitsOf(d.day, 2);
    ParseConcat(y, m);
    ParseConcat(y + m, dd);
  }

  lemma {:induction false} LeadingDigit(y: nat)
    requires 1000 <= y <= 9999
    ensures Digits(y, 4)[0] != '0'
  {
    var s := Digits(y, 4);
    assert Pow10(4) == 10000 && Pow10(3) == 1000;
    ParseDigitsOf(y, 4);
    if s[0] == '0' {
      assert s == [s[0]] + s[1..];
      ParseConcat([s[0]], s[1..]);
      ParseBound(s[1..]);
      assert false;
    }
  }

  /** For years 1000-9999, Python's `str` of the integer token is exactly
      the `%Y%m%d` text, so the token carries no lost leading zero. */
  lemma {:induction false} TokenTextIsFormat(d: Date)
    requires FourDigitYear(d) && d.year >= 1000
    ensures DecimalString(TokenOf(d)) == FormatYmd(d)
  {
    ParseFormatIsToken(d);
    LeadingDigit(d.year);
    NaturalStringOfParse(FormatYmd(d));
  }

  /** Round trip: the loader's decomposition of a date's token gives back
      that date. */
  lemma {:induction false} TokenRoundTrip(d: Date)
    requires FourDigitYear(d) && d.year >= 1000
    ensures DateOfToken(TokenOf(d)) == Some(d)
  {
    TokenTextIsFormat(d);
    ParseFormat(d);
  }

  /** The other direction: whatever date the loader reads from text, the
      text's first eight characters are that date's `%Y%m%d` form. */
  lemma {:induction false} FormatOfParse(s: string)
    requires ParseYmd(s).Some?
    ensures FormatYmd(ParseYmd(s).value) == s[..8]
  {
    var y, m, d := Slice(s, 0, 4), Slice(s, 4, 6), Slice(s, 6, 8);
    DigitsOfParse(y);
    DigitsOfParse(m);
    DigitsOfParse(d);
    assert s[..8] == y + m + d;
  }

  /** An eight-digit token is exactly the token of the date read from it. */
  lemma {:induction false} TokenOfDateOfToken(x: int)
    requires DateOfToken(x).Some? && |DecimalString(x)| == 8
    ensures TokenOf(DateOfToken(x).value) == x
  {
    var s := DecimalString(x);
    var d := DateOfToken(x).value;
    assert x >= 0;
    FormatOfParse(s);
    assert s[..8] == s;
    ParseFormatIsToken(d);
    ParseNaturalString(x);
  }
}

=== FILE: download.dfy ===
/** The cache-fill loops of `covid_data_query.main`: walk every day from
    2020-03-01 to the end date and fetch `YYYYMMDD.json` for a scope only
    when that file is not already in the scope's cache directory. The
    disk is a set of file names per directory; the fetch is an oracle that
    says whether `curl` produced the file. */
module Download {
  import opened Wrappers
  import opened Text
  import opened Calendar

  const UrlApi: string := "https://api.covidtracking.com"

  /** The first day of `DATES`. */
  const FirstDay: Date := Date(2020, 3, 1)

  /** The USA aggregate (`us/`) or one state directory (`states/<code>/`,
      with the code as listed). */
  datatype Scope = Usa | State(code: string)

  /** The cache on disk: whether `states/` exists, and the file names held
      by each scope directory that exists. */
  datatype Store = Store(statesRoot: bool, dirs: map<Scope, set<string>>)

  predicate Present(st: Store, scope: Scope, fname: string) {
    scope in st.dirs && fname in st.dirs[scope]
  }

  /** One (scope, day) visited by a loop; when its file is missing it is
      also the request `curl` is run for. */
  datatype Target = Target(scope: Scope, date: Date)

  /** The outcome of a run: the cache afterwards, the targets requested in
      order, and whether the run finished (a `curl` that produces no file
      makes the following `os.rename` raise, which ends the run). */
  datatype Run = Run(store: Store, issued: seq<Target>, completed: bool)

  /** `'%s.json' % d.strftime('%Y%m%d')`. */
  function FileName(d: Date): (f: string)
    requires FourDigitYear(d)
    ensures |f| == 13 && f[..8] == FormatYmd(d) && f[8..] == ".json"
  {
    FormatYmd(d) + ".json"
  }

  /** Eight zero-padded digits followed by `.json`. */
  lemma {:induction false} FileNameShape(d: Date)
    requires FourDigitYear(d)
    ensures var f := FileName(d);
            |f| == 13 && AllDigits(f[..8]) && f[8..] == ".json"
  {
  }

  /** Distinct days have distinct cache files. */
  lemma {:induction false} FileNameInjective(a: Date, b: Date)
    requires FourDigitYear(a) && FourDigitYear(b)
    ensures FileName(a) == FileName(b) ==> a == b
  {
    if FileName(a) == FileName(b) {
      assert FormatYmd(a) == FileName(a)[..8] == FileName(b)[..8] == FormatYmd(b);
      FormatInjective(a, b);
    }
  }

  /** The file name's stem is the text of the API's date token, and the
      loader's decomposition of that token recovers the day. */
  lemma {:induction false} FileNameMatchesLoader(d: Date)
    requires FourDigitYear(d) && d.year >= 1000
    ensures FileName(d)[..8] == DecimalString(TokenOf(d))
    ensures DateOfToken(TokenOf(d)) == Some(d)
  {
    TokenTextIsFormat(d);
    TokenRoundTrip(d);
  }

  /** The URL `curl` is pointed at; the state code is lower-cased here but
      not in the directory name. */
  function Url(scope: Scope, fname: string): (u: string)
    ensures |u| > |UrlApi| + |fname| && u[..|UrlApi|] == UrlApi && u[|u| - |fname|..] == fname
  {
    match scope
    case Usa => UrlApi + "/v1/us/" + fname
    case State(code) => UrlApi + "/v1/states/" + Lower(code) + "/" + fname
  }

  function RequestUrl(t: Target): string
    requires FourDigitYear(t.date)
  {
    Url(t.scope, FileName(t.date))
  }

  /** A request's URL identifies the day it asks for, whether it is for the
      USA or a state, and the state code up to letter case. */
  lemma {:induction false} UrlIdentifiesTarget(a: Target, b: Target)
    requires FourDigitYear(a.date) && FourDigitYear(b.date)
    requires RequestUrl(a) == RequestUrl(b)
    ensures a.date == b.date
    ensures a.scope.Usa? <==> b.scope.Usa?
    ensures a.scope.State? && b.scope.State? ==> Lower(a.scope.code) == Lower(b.scope.code)
  {
    var fa, fb := FileName(a.date), FileName(b.date);
    var u := RequestUrl(a);
    FileNameShape(a.date);
    FileNameShape(b.date);
    assert u[|u| - 13..] == fa && u[|u| - 13..] == fb;
    FileNameInjective(a.date, b.date);
    var n := |UrlApi| + 4;
    assert u[n] == (if a.scope.Usa? then 'u' else 's');
    assert u[n] == (if b.scope.Usa? then 'u' else 's');
    if a.scope.State? && b.scope.State? {
      var la, lb := Lower(a.scope.code), Lower(b.scope.code);
      assert |la| == |lb|;
      assert u[|UrlApi| + 11..|UrlApi| + 11 + |la|] == la;
      assert u[|UrlApi| + 11..|UrlApi| + 11 + |lb|] == lb;
    }
  }

  /** `if not os.path.exists(dir): os.mkdir(dir)`: afterwards the directory
      exists; an existing one is left as it is, and no file appears or
      disappears anywhere. */
  function EnsureDir(st: Store, scope: Scope): (r: Store)
    ensures scope in r.dirs && r.dirs.Keys == st.dirs.Keys + {scope}
    ensures scope in st.dirs ==> r == st
    ensures r.statesRoot == st.statesRoot
    ensures forall s, f :: Present(r, s, f) <==> Present(st, s, f)
  {
    if scope in st.dirs then st else st.(dirs := st.dirs[scope := {}])
  }

  /** The same for the `states/` directory itself. */
  function EnsureStatesRoot(st: Store): (r: Store)
    ensures r.statesRoot && r.dirs == st.dirs
    ensures st.statesRoot ==> r == st
  {
    if st.statesRoot then st else st.(statesRoot := true)
  }

  /** `os.rename(fname, dir/fname)` after a successful download. */
  function AddFile(st: Store, scope: Scope, fname: string): (r: Store)
    requires scope in st.dirs
    ensures r.statesRoot == st.statesRoot && r.dirs.Keys == st.dirs.Keys
    ensures forall s, f :: Present(r, s, f) <==> Present(st, s, f) || (s == scope && f == fname)
  {
    st.(dirs := st.dirs[scope := st.dirs[scope] + {fname}])
  }

  predicate Plannable(targets: seq<Target>) {
    forall i :: 0 <= i < |targets| ==> FourDigitYear(targets[i].date)
  }

  /** The file for `t` is in its scope's directory. */
  predicate Has(st: Store, t: Target)
    requires FourDigitYear(t.date)
    ensures Has(st, t) ==> t.scope in st.dirs && |st.dirs[t.scope]| > 0
  {
    Present(st, t.scope, FileName(t.date))
  }

  /** The missing dates of a plan, in plan order: a reference definition
      of the requests a run should issue. */
  function Missing(st: Store, targets: seq<Target>): (r: seq<Target>)
    requires Plannable(targets)
    ensures Plannable(r)
    ensures forall i :: 0 <= i < |r| ==> !Has(st, r[i]) && r[i] in targets
    ensures forall i :: 0 <= i < |targets| && !Has(st, targets[i]) ==> targets[i] in r
  {
    if targets == [] then []
    else
      var t := targets[0];
      var rest := Missing(st, targets[1..]);
      assert forall i :: 1 <= i < |targets| ==> targets[i] == targets[1..][i - 1];
      if !Has(st, t) then [t] + rest else rest
  }

  /** Each (scope, day) appears once in a plan. */
  predicate Distinct(targets: seq<Target>) {
    forall i, j :: 0 <= i < j < |targets| ==> targets[i] != targets[j]
  }

  /** Days never go backwards along a plan. */
  predicate DatesAscend(targets: seq<Target>) {
    forall i, j :: 0 <= i < j < |targets| ==> !Before(targets[j].date, targets[i].date)
  }

  /** Two stores that agree on which plan files are present give the same
      missing list. */
  lemma {:induction false} MissingAgree(st: Store, st': Store, targets: seq<Target>)
    requires Plannable(targets)
    requires forall i :: 0 <= i < |targets| ==> Has(st, targets[i]) == Has(st', targets[i])
    ensures Missing(st, targets) == Missing(st', targets)
  {
    if targets != [] {
      assert forall i :: 1 <= i < |targets| ==> targets[i] == targets[1..][i - 1];
      MissingAgree(st, st', targets[1..]);
    }
  }

  /** What one iteration of a loop did. */
  datatype Visit = Skipped(store: Store) | Fetched(store: Store) | Failed(store: Store)

  /** One iteration of a download loop: create the scope directory if
      absent; skip the day if its file is present; otherwise run `curl`,
      then either move the file into place or fail. */
  function VisitTarget(st: Store, t: Target, fetch: Target -> bool): (v: Visit)
    requires FourDigitYear(t.date)
    ensures v.Skipped? <==> Has(st, t)
    ensures v.Failed? <==> !Has(st, t) && !fetch(t)
    ensures t.scope in v.store.dirs && v.store.dirs.Keys == st.dirs.Keys + {t.scope} && v.store.statesRoot == st.statesRoot
    ensures v.Fetched? ==> forall s, f :: Present(v.store, s, f) <==> Present(st, s, f) || (s == t.scope && f == FileName(t.date))
    ensures !v.Fetched? ==> forall s, f :: Present(v.store, s, f) <==> Present(st, s, f)
  {
    var st1 := EnsureDir(st, t.scope);
    if Has(st1, t) then Skipped(st1)
    else if !fetch(t) then Failed(st1)
    else Fetched(AddFile(st1, t.scope, FileName(t.date)))
  }

  /** Every file present in `st` is still present in `st'`. */
  ghost predicate Grows(st: Store, st': Store) {
    forall s, f :: Present(st, s, f) ==> Present(st', s, f)
  }

  /** Every request was for a file absent from `st`. */
  predicate AllMissing(st: Store, issued: seq<Target>) {
    forall i :: 0 <= i < |issued| ==> FourDigitYear(issued[i].date) && !Has(st, issued[i])
  }

  /** The run stopped exactly at its first request that produced no file:
      every earlier request succeeded, and an unfinished run ends with the
      failed one. */
  predicate StopsAtFirstFailure(r: Run, fetch: Target -> bool) {
    && (forall i :: 0 <= i < |r.issued| - 1 ==> fetch(r.issued[i]))
    && (r.completed ==> forall i :: 0 <= i < |r.issued| ==> fetch(r.issued[i]))
    && (!r.completed ==> |r.issued| > 0 && !fetch(r.issued[|r.issued| - 1]))
  }

  /** Visits the plan in order, stopping at the first failed download. */
  function Execute(st: Store, targets: seq<Target>, fetch: Target -> bool): (r: Run)
    requires Plannable(targets)
    // every request is a target of the plan
    ensures forall i :: 0 <= i < |r.issued| ==> r.issued[i] in targets
    // nothing is removed
    ensures Grows(st, r.store)
    // a finished run leaves every file of the plan in place
    ensures r.completed ==> forall i :: 0 <= i < |targets| ==> Has(r.store, targets[i])
    decreases |targets|
  {
    if targets == [] then Run(st, [], true)
    else
      var t := targets[0];
      var tail := targets[1..];
      assert forall i :: 1 <= i < |targets| ==> targets[i] == tail[i - 1];
      match VisitTarget(st, t, fetch)
      case Skipped(st1) => Execute(st1, tail, fetch)
      case Failed(st1) => Run(st1, [t], false)
      case Fetched(st2) =>
        var rest := Execute(st2, tail, fetch);
        Run(rest.store, [t] + rest.issued, rest.completed)
  }

  /** A visit never removes a file. */
  lemma {:induction false} VisitKeeps(st: Store, t: Target, fetch: Target -> bool, x: Target)
    requires FourDigitYear(t.date) && FourDigitYear(x.date)
    ensures Has(st, x) ==> Has(VisitTarget(st, t, fetch).store, x)
  {
  }

  /** Requests are issued only for files absent beforehand: a run never
      overwrites a cached file. */
  lemma {:induction false} ExecuteNeverOverwrites(st: Store, targets: seq<Target>, fetch: Target -> bool)
    requires Plannable(targets)
    ensures AllMissing(st, Execute(st, targets, fetch).issued)
    decreases |targets|
  {
    if targets != [] {
      var t, tail := targets[0], targets[1..];
      assert forall i :: 1 <= i < |targets| ==> targets[i] == tail[i - 1];
      var v := VisitTarget(st, t, fetch);
      if !v.Failed? {
        ExecuteNeverOverwrites(v.store, tail, fetch);
        var rest := Execute(v.store, tail, fetch).issued;
        forall i | 0 <= i < |rest|
          ensures !Has(st, rest[i])
        {
          VisitKeeps(st, t, fetch, rest[i]);
        }
        if v.Fetched? {
          var issued := [t] + rest;
          assert Execute(st, targets, fetch).issued == issued;
          forall i | 0 < i < |issued|
            ensures issued[i] == rest[i - 1]
          {
          }
        }
      }
    }
  }

  /** A successful request followed by a run that stops at its first
      failure is again such a run. */
  lemma {:induction false} ConsStops(t: Target, rest: Run, fetch: Target -> bool)
    requires fetch(t) && StopsAtFirstFailure(rest, fetch)
    ensures StopsAtFirstFailure(Run(rest.store, [t] + rest.issued, rest.completed), fetch)
  {
    var issued := [t] + rest.issued;
    forall i | 0 < i < |issued|
      ensures issued[i] == rest.issued[i - 1]
    {
    }
  }

  /** A run stops at its first failed request and nowhere else. */
  lemma {:induction false} ExecuteStopsAtFailure(st: Store, targets: seq<Target>, fetch: Target -> bool)
    requires Plannable(targets)
    ensures StopsAtFirstFailure(Execute(st, targets, fetch), fetch)
    decreases |targets|
  {
    if targets != [] {
      var t, tail := targets[0], targets[1..];
      assert forall i :: 1 <= i < |targets| ==> targets[i] == tail[i - 1];
      match VisitTarget(st, t, fetch)
      case Skipped(st1) =>
        ExecuteStopsAtFailure(st1, tail, fetch);
        assert Execute(st, targets, fetch) == Execute(st1, tail, fetch);
      case Failed(st1) =>
        assert Execute(st, targets, fetch) == Run(st1, [t], false);
      case Fetched(st2) =>
        ExecuteStopsAtFailure(st2, tail, fetch);
        var rest := Execute(st2, tail, fetch);
        assert fetch(t);
        ConsStops(t, rest, fetch);
        assert Execute(st, targets, fetch) == Run(rest.store, [t] + rest.issued, rest.completed);
    }
  }

  /** The scope directories a plan names. */
  function Scopes(targets: seq<Target>): set<Scope> {
    set i | 0 <= i < |targets| :: targets[i].scope
  }

  /** No directory disappears, `states/` is left as it is, and the only
      directories that can appear are those of the plan's scopes. */
  lemma {:induction false} ExecuteKeepsDirs(st: Store, targets: seq<Target>, fetch: Target -> bool)
    requires Plannable(targets)
    ensures st.dirs.Keys <= Execute(st, targets, fetch).store.dirs.Keys
    ensures Execute(st, targets, fetch).store.statesRoot == st.statesRoot
    ensures Execute(st, targets, fetch).store.dirs.Keys <= st.dirs.Keys + Scopes(targets)
    decreases |targets|
  {
    if targets != [] {
      var t, tail := targets[0], targets[1..];
      assert forall i :: 1 <= i < |targets| ==> targets[i] == tail[i - 1];
      assert t.scope in Scopes(targets);
      assert Scopes(tail) <= Scopes(targets) by {
        forall x | x in Scopes(tail) ensures x in Scopes(targets) {
          var i :| 0 <= i < |tail| && tail[i].scope == x;
          assert targets[i + 1] == tail[i];
        }
      }
      match VisitTarget(st, t, fetch)
      case Skipped(st1) =>
        ExecuteKeepsDirs(st1, tail, fetch);
      case Failed(_) =>
      case Fetched(st2) =>
        ExecuteKeepsDirs(st2, tail, fetch);
    }
  }

  lemma {:induction false} AscendCons(t: Target, rest: seq<Target>)
    requires DatesAscend(rest)
    requires forall k :: 0 <= k < |rest| ==> !Before(rest[k].date, t.date)
    ensures DatesAscend([t] + rest)
  {
    var issued := [t] + rest;
    forall i, j | 0 <= i < j < |issued|
      ensures !Before(issued[j].date, issued[i].date)
    {
      assert issued[j] == rest[j - 1];
      if i > 0 {
        assert issued[i] == rest[i - 1];
      }
    }
  }

  /** Requests follow the plan's day order. */
  lemma {:induction false} ExecuteAscends(st: Store, targets: seq<Target>, fetch: Target -> bool)
    requires Plannable(targets) && DatesAscend(targets)
    ensures DatesAscend(Execute(st, targets, fetch).issued)
    decreases |targets|
  {
    if targets != [] {
      var t, tail := targets[0], targets[1..];
      assert forall i :: 1 <= i < |targets| ==> targets[i] == tail[i - 1];
      match VisitTarget(st, t, fetch)
      case Skipped(st1) =>
        ExecuteAscends(st1, tail, fetch);
      case Failed(_) =>
      case Fetched(st2) =>
        var rest := Execute(st2, tail, fetch).issued;
        ExecuteAscends(st2, tail, fetch);
        forall k | 0 <= k < |rest|
          ensures !Before(rest[k].date, t.date)
        {
          var j :| 0 <= j < |tail| && tail[j] == rest[k];
          assert targets[j + 1] == rest[k];
        }
        AscendCons(t, rest);
    }
  }

  /** Some request that succeeded was for file `f` of scope `s`. */
  predicate Requested(issued: seq<Target>, s: Scope, f: string, fetch: Target -> bool) {
    exists i :: 0 <= i < |issued| && FourDigitYear(issued[i].date) && issued[i].scope == s
                && FileName(issued[i].date) == f && fetch(issued[i])
  }

  /** A file that was not there before comes from a request that
      succeeded. */
  lemma {:induction false} ExecuteOnlyFetched(st: Store, targets: seq<Target>, fetch: Target -> bool, s: Scope, f: string)
    requires Plannable(targets)
    ensures Present(Execute(st, targets, fetch).store, s, f) && !Present(st, s, f) ==>
              Requested(Execute(st, targets, fetch).issued, s, f, fetch)
    decreases |targets|
  {
    if targets != [] {
      var t, tail := targets[0], targets[1..];
      var r := Execute(st, targets, fetch);
      match VisitTarget(st, t, fetch)
      case Skipped(st1) =>
        assert r == Execute(st1, tail, fetch);
        ExecuteOnlyFetched(st1, tail, fetch, s, f);
      case Failed(st1) =>
        assert r.store == st1;
      case Fetched(st2) =>
        ExecuteOnlyFetched(st2, tail, fetch, s, f);
        var rest := Execute(st2, tail, fetch);
        assert r.issued == [t] + rest.issued && r.store == rest.store;
        RequestedAppend([t], rest.issued, s, f, fetch);
        if s == t.scope && f == FileName(t.date) {
          assert [t][0] == t;
        }
    }
  }

  /** Every request that `curl` answered left its file in the cache: a
      file is moved into place as soon as it is fetched, so a run that
      stops early keeps what it fetched before the failure. */
  predicate KeepsFetched(r: Run, fetch: Target -> bool) {
    forall i :: 0 <= i < |r.issued| && FourDigitYear(r.issued[i].date) && fetch(r.issued[i]) ==> Has(r.store, r.issued[i])
  }

  lemma {:induction false} ExecuteKeepsFetched(st: Store, targets: seq<Target>, fetch: Target -> bool)
    requires Plannable(targets)
    ensures KeepsFetched(Execute(st, targets, fetch), fetch)
    decreases |targets|
  {
    if targets != [] {
      var t, tail := targets[0], targets[1..];
      var r := Execute(st, targets, fetch);
      match VisitTarget(st, t, fetch)
      case Skipped(st1) =>
        assert r == Execute(st1, tail, fetch);
        ExecuteKeepsFetched(st1, tail, fetch);
      case Failed(st1) =>
        assert r == Run(st1, [t], false);
      case Fetched(st2) =>
        ExecuteKeepsFetched(st2, tail, fetch);
        var rest := Execute(st2, tail, fetch);
        assert r.issued == [t] + rest.issued && r.store == rest.store;
        assert Has(st2, t);
        forall i | 0 < i < |r.issued|
          ensures r.issued[i] == rest.issued[i - 1]
        {
        }
    }
  }

  /** Every file that is in the cache afterwards but was not before was
      requested, and `curl` produced it. */
  ghost predicate OnlyRequested(st: Store, r: Run, fetch: Target -> bool) {
    forall s, f :: Present(r.store, s, f) && !Present(st, s, f) ==> Requested(r.issued, s, f, fetch)
  }

  lemma {:induction false} ExecuteOnlyRequested(st: Store, targets: seq<Target>, fetch: Target -> bool)
    requires Plannable(targets)
    ensures OnlyRequested(st, Execute(st, targets, fetch), fetch)
  {
    forall s, f
      ensures Present(Execute(st, targets, fetch).store, s, f) && !Present(st, s, f) ==>
                Requested(Execute(st, targets, fetch).issued, s, f, fetch)
    {
      ExecuteOnlyFetched(st, targets, fetch, s, f);
    }
  }

  /** A request in either part of a request log is in the whole log. */
  lemma {:induction false} RequestedAppend(a: seq<Target>, b: seq<Target>, s: Scope, f: string, fetch: Target -> bool)
    ensures Requested(a, s, f, fetch) ==> Requested(a + b, s, f, fetch)
    ensures Requested(b, s, f, fetch) ==> Requested(a + b, s, f, fetch)
  {
    if Requested(a, s, f, fetch) {
      var i :| 0 <= i < |a| && FourDigitYear(a[i].date) && a[i].scope == s
                && FileName(a[i].date) == f && fetch(a[i]);
      assert (a + b)[i] == a[i];
    }
    if Requested(b, s, f, fetch) {
      var i :| 0 <= i < |b| && FourDigitYear(b[i].date) && b[i].scope == s
                && FileName(b[i].date) == f && fetch(b[i]);
      assert (a + b)[|a| + i] == b[i];
    }
  }

  /** Every request is for one of the given days. */
  predicate DaysIn(issued: seq<Target>, dates: seq<Date>) {
    forall i :: 0 <= i < |issued| ==> issued[i].date in dates
  }

  /** Every state request is for one of the given codes. */
  predicate CodesIn(issued: seq<Target>, codes: seq<string>) {
    forall i :: 0 <= i < |issued| && issued[i].scope.State? ==> issued[i].scope.code in codes
  }

  /** On a plan without repeats, a finished run requested exactly the
      missing files, in plan order. */
  lemma {:induction false} ExecuteIssuesMissing(st: Store, targets: seq<Target>, fetch: Target -> bool)
    requires Plannable(targets) && Distinct(targets)
    ensures Execute(st, targets, fetch).completed ==>
              Execute(st, targets, fetch).issued == Missing(st, targets)
    decreases |targets|
  {
    if targets != [] {
      var t, tail := targets[0], targets[1..];
      assert forall i :: 1 <= i < |targets| ==> targets[i] == tail[i - 1];
      match VisitTarget(st, t, fetch)
      case Skipped(st1) =>
        ExecuteIssuesMissing(st1, tail, fetch);
        MissingAgree(st, st1, tail);
      case Failed(_) =>
      case Fetched(st2) =>
        ExecuteIssuesMissing(st2, tail, fetch);
        TailMissingAgree(st, st2, t, tail);
    }
  }

  /** After fetching `t`, the rest of a repeat-free plan misses the same
      files as before. */
  lemma {:induction false} TailMissingAgree(st: Store, st2: Store, t: Target, tail: seq<Target>)
    requires FourDigitYear(t.date) && Plannable(tail)
    requires forall i :: 0 <= i < |tail| ==> tail[i] != t
    requires forall s, f :: Present(st2, s, f) <==> Present(st, s, f) || (s == t.scope && f == FileName(t.date))
    ensures Missing(st2, tail) == Missing(st, tail)
  {
    forall i | 0 <= i < |tail|
      ensures Has(st2, tail[i]) == Has(st, tail[i])
    {
      FileNameInjective(tail[i].date, t.date);
    }
    MissingAgree(st, st2, tail);
  }

  /** On a plan without repeats, any run, finished or not, requested the
      missing files in plan order up to where it stopped: it skipped none
      of them. */
  lemma {:induction false} ExecuteIssuesMissingPrefix(st: Store, targets: seq<Target>, fetch: Target -> bool)
    requires Plannable(targets) && Distinct(targets)
    ensures |Execute(st, targets, fetch).issued| <= |Missing(st, targets)|
    ensures Execute(st, targets, fetch).issued == Missing(st, targets)[..|Execute(st, targets, fetch).issued|]
    decreases |targets|
  {
    if targets != [] {
      var t, tail := targets[0], targets[1..];
      DistinctTail(targets);
      var r := Execute(st, targets, fetch);
      var m := Missing(st, tail);
      match VisitTarget(st, t, fetch)
      case Skipped(st1) =>
        ExecuteIssuesMissingPrefix(st1, tail, fetch);
        MissingAgree(st, st1, tail);
        assert r == Execute(st1, tail, fetch) && Missing(st, targets) == m;
      case Failed(st1) =>
        assert r.issued == [t] + [] && Missing(st, targets) == [t] + m;
        PrefixCons(t, [], m);
      case Fetched(st2) =>
        ExecuteIssuesMissingPrefix(st2, tail, fetch);
        TailMissingAgree(st, st2, t, tail);
        var rest := Execute(st2, tail, fetch).issued;
        assert r.issued == [t] + rest && Missing(st, targets) == [t] + m;
        PrefixCons(t, rest, m);
    }
  }

  /** The rest of a repeat-free plan is repeat-free and does not repeat
      its first target. */
  lemma {:induction false} DistinctTail(targets: seq<Target>)
    requires targets != [] && Plannable(targets) && Distinct(targets)
    ensures Plannable(targets[1..]) && Distinct(targets[1..])
    ensures FourDigitYear(targets[0].date)
    ensures forall i :: 0 <= i < |targets| - 1 ==> targets[1..][i] != targets[0]
  {
    assert forall i :: 1 <= i < |targets| ==> targets[i] == targets[1..][i - 1];
  }

  /** Putting the same element in front keeps a prefix a prefix. */
  lemma {:induction false} PrefixCons<T>(t: T, a: seq<T>, b: seq<T>)
    requires |a| <= |b| && a == b[..|a|]
    ensures |[t] + a| <= |[t] + b| && [t] + a == ([t] + b)[..|[t] + a|]
  {
    assert ([t] + b)[..|a| + 1] == [t] + b[..|a|];
  }

  /** When every file of the plan is present, a run creates nothing,
      issues nothing and finishes. */
  lemma {:induction false} AllPresentIsIdle(st: Store, targets: seq<Target>, fetch: Target -> bool)
    requires Plannable(targets)
    requires forall i :: 0 <= i < |targets| ==> Present(st, targets[i].scope, FileName(targets[i].date))
    ensures Execute(st, targets, fetch) == Run(st, [], true)
  {
    if targets != [] {
      assert forall i :: 1 <= i < |targets| ==> targets[i] == targets[1..][i - 1];
      AllPresentIsIdle(st, targets[1..], fetch);
    }
  }

  /** Re-running a plan after a finished run issues zero requests and
      leaves the cache as it is, whatever the network does. */
  lemma {:induction false} SecondRunIsIdle(st: Store, targets: seq<Target>, fetch: Target -> bool, fetch': Target -> bool)
    requires Plannable(targets)
    requires Execute(st, targets, fetch).completed
    ensures Execute(Execute(st, targets, fetch).store, targets, fetch')
              == Run(Execute(st, targets, fetch).store, [], true)
  {
    var r := Execute(st, targets, fetch);
    AllPresentIsIdle(r.store, targets, fetch');
  }

  /** The targets of a list that concern one scope. */
  function ForScope(targets: seq<Target>, s: Scope): (r: seq<Target>)
    ensures forall i :: 0 <= i < |r| ==> r[i].scope == s && r[i] in targets
  {
    if targets == [] then []
    else
      var rest := ForScope(targets[1..], s);
      if targets[0].scope == s then [targets[0]] + rest else rest
  }

  lemma {:induction false} ForScopeCons(t: Target, rest: seq<Target>, s: Scope)
    ensures ForScope([t] + rest, s) == (if t.scope == s then [t] else []) + ForScope(rest, s)
  {
    assert ([t] + rest)[1..] == rest;
  }

  /** Whether a (scope, day) is fetched depends on that scope's directory
      alone: two caches with the same directory for `s` miss the same
      files for `s`, whatever the other directories hold. */
  lemma {:induction false} MissingPerScope(st: Store, st': Store, targets: seq<Target>, s: Scope)
    requires Plannable(targets)
    requires (s in st.dirs <==> s in st'.dirs) && (s in st.dirs ==> st.dirs[s] == st'.dirs[s])
    ensures ForScope(Missing(st, targets), s) == ForScope(Missing(st', targets), s)
  {
    if targets != [] {
      var t, tail := targets[0], targets[1..];
      assert forall i :: 1 <= i < |targets| ==> targets[i] == tail[i - 1];
      var m, m' := Missing(st, tail), Missing(st', tail);
      MissingPerScope(st, st', tail, s);
      assert Missing(st, targets) == if Has(st, t) then m else [t] + m;
      assert Missing(st', targets) == if Has(st', t) then m' else [t] + m';
      assert t.scope == s ==> Has(st, t) == Has(st', t);
      ForScopeCons(t, m, s);
      ForScopeCons(t, m', s);
    }
  }

  /** The USA loop: one target per day. */
  function UsPlan(dates: seq<Date>): (r: seq<Target>)
    ensures |r| == |dates|
    ensures forall i :: 0 <= i < |r| ==> r[i] == Target(Usa, dates[i])
  {
    seq(|dates|, i requires 0 <= i < |dates| => Target(Usa, dates[i]))
  }

  /** One day of the states loop: every state, in the listed order. */
  function DayBlock(d: Date, codes: seq<string>): (r: seq<Target>)
    ensures |r| == |codes|
    ensures forall j :: 0 <= j < |r| ==> r[j] == Target(State(codes[j]), d)
  {
    seq(|codes|, j requires 0 <= j < |codes| => Target(State(codes[j]), d))
  }

  /** The states loop: days outside, states inside. */
  function StatePlan(dates: seq<Date>, codes: seq<string>): (r: seq<Target>)
    ensures |r| == |dates| * |codes|
  {
    if dates == [] then []
    else
      var rest := StatePlan(dates[1..], codes);
      assert |rest| == |dates| * |codes| - |codes|;
      DayBlock(dates[0], codes) + rest
  }

  /** A (scope, day) is in the states plan exactly when the day is in the
      range and the scope is a listed state. */
  lemma {:induction false} StatePlanMembers(dates: seq<Date>, codes: seq<string>, t: Target)
    ensures t in StatePlan(dates, codes) <==> t.date in dates && t.scope.State? && t.scope.code in codes
  {
    if dates != [] {
      StatePlanMembers(dates[1..], codes, t);
      assert dates == [dates[0]] + dates[1..];
      if t.scope.State? && t.scope.code in codes && t.date == dates[0] {
        var j :| 0 <= j < |codes| && codes[j] == t.scope.code;
        assert DayBlock(dates[0], codes)[j] == t;
      }
    }
  }

  lemma {:induction false} MulPred(i: int, n: int)
    ensures i * n == (i - 1) * n + n
    ensures i >= 1 && n >= 0 ==> (i - 1) * n >= 0
  {
  }

  /** Where day `i` starts in a plan with `n` entries per day, counted
      day by day. */
  ghost function DayOffset(i: nat, n: nat): nat {
    if i == 0 then 0 else DayOffset(i - 1, n) + n
  }

  lemma {:induction false} DayOffsetIsProduct(i: nat, n: nat)
    ensures DayOffset(i, n) == i * n
  {
    if i > 0 {
      DayOffsetIsProduct(i - 1, n);
      MulPred(i, n);
    }
  }

  /** Entry `j` of day `i`'s block, located by the day-by-day offset. */
  lemma {:induction false} StatePlanAt(dates: seq<Date>, codes: seq<string>, i: nat, j: int)
    requires i < |dates| && 0 <= j < |codes|
    ensures DayOffset(i, |codes|) + j < |StatePlan(dates, codes)|
    ensures StatePlan(dates, codes)[DayOffset(i, |codes|) + j] == Target(State(codes[j]), dates[i])
  {
    var n := |codes|;
    var block, rest := DayBlock(dates[0], codes), StatePlan(dates[1..], codes);
    var plan := StatePlan(dates, codes);
    assert plan == block + rest;
    assert |block| == n && |plan| == n + |rest|;
    if i > 0 {
      StatePlanAt(dates[1..], codes, i - 1, j);
      var k := DayOffset(i - 1, n) + j;
      assert DayOffset(i, n) + j == k + n;
      assert (block + rest)[|block| + k] == rest[k];
      assert dates[1..][i - 1] == dates[i];
    } else {
      assert plan[j] == block[j];
    }
  }

  /** Position `i * |codes| + j` of the states plan is state `j` on day
      `i`: every day lists the states in the same, given order. */
  lemma {:induction false} StatePlanOrder(dates: seq<Date>, codes: seq<string>, i: int, j: int)
    requires 0 <= i < |dates| && 0 <= j < |codes|
    ensures i * |codes| + j < |StatePlan(dates, codes)|
    ensures StatePlan(dates, codes)[i * |codes| + j] == Target(State(codes[j]), dates[i])
  {
    StatePlanAt(dates, codes, i, j);
    DayOffsetIsProduct(i, |codes|);
  }

  /** The states loop opens with the first day's block: every listed state,
      in order, on the first day. */
  lemma {:induction false} StatePlanFirstDay(dates: seq<Date>, codes: seq<string>)
    requires dates != []
    ensures |codes| <= |StatePlan(dates, codes)|
    ensures StatePlan(dates, codes)[..|codes|] == DayBlock(dates[0], codes)
  {
    var plan := StatePlan(dates, codes);
    if codes != [] {
      StatePlanOrder(dates, codes, 0, 0);
    }
    forall j | 0 <= j < |codes|
      ensures plan[j] == DayBlock(dates[0], codes)[j]
    {
      StatePlanOrder(dates, codes, 0, j);
    }
  }

  predicate StrictlyAscending(dates: seq<Date>) {
    forall i, j :: 0 <= i < j < |dates| ==> Before(dates[i], dates[j])
  }

  predicate DistinctCodes(codes: seq<string>) {
    forall i, j :: 0 <= i < j < |codes| ==> codes[i] != codes[j]
  }

  /** Over strictly ascending days the states plan never goes back a day. */
  lemma {:induction false} StatePlanAscends(dates: seq<Date>, codes: seq<string>)
    requires StrictlyAscending(dates)
    ensures DatesAscend(StatePlan(dates, codes))
  {
    if dates != [] {
      var d := dates[0];
      var block, rest := DayBlock(d, codes), StatePlan(dates[1..], codes);
      StatePlanAscends(dates[1..], codes);
      forall x | x in rest
        ensures Before(d, x.date)
      {
        StatePlanMembers(dates[1..], codes, x);
      }
      var p := block + rest;
      forall i, j | 0 <= i < j < |p|
        ensures !Before(p[j].date, p[i].date)
      {
        if j < |block| {
        } else if i < |block| {
          assert p[j] == rest[j - |block|];
        } else {
          assert p[i] == rest[i - |block|] && p[j] == rest[j - |block|];
        }
      }
    }
  }

  /** Over strictly ascending days and distinct codes, the states plan
      visits each (day, state) pair exactly once. */
  lemma {:induction false} StatePlanDistinct(dates: seq<Date>, codes: seq<string>)
    requires StrictlyAscending(dates) && DistinctCodes(codes)
    ensures Distinct(StatePlan(dates, codes))
  {
    if dates != [] {
      var d := dates[0];
      var block, rest := DayBlock(d, codes), StatePlan(dates[1..], codes);
      StatePlanDistinct(dates[1..], codes);
      forall x | x in rest
        ensures Before(d, x.date)
      {
        StatePlanMembers(dates[1..], codes, x);
      }
      var p := block + rest;
      forall i, j | 0 <= i < j < |p|
        ensures p[i] != p[j]
      {
        if j < |block| {
        } else if i < |block| {
          assert p[j] == rest[j - |block|];
        } else {
          assert p[i] == rest[i - |block|] && p[j] == rest[j - |block|];
        }
      }
    }
  }

  /** The USA plan over strictly ascending days has no repeats and keeps
      the day order. */
  lemma {:induction false} UsPlanShape(dates: seq<Date>)
    requires StrictlyAscending(dates)
    ensures Distinct(UsPlan(dates)) && DatesAscend(UsPlan(dates))
  {
  }

  /** `DATES` up to `end`, all of them with four-digit years. */
  function Dates(end: Date): (r: seq<Date>)
    requires FourDigitYear(end)
    ensures StrictlyAscending(r)
    ensures forall i :: 0 <= i < |r| ==> FourDigitYear(r[i]) && r[i].year >= 2020
    ensures r != [] ==> r[0] == FirstDay
    ensures r == [] <==> Before(end, FirstDay)
    ensures forall i :: 0 <= i < |r| - 1 ==> Valid(r[i]) && r[i + 1] == NextDay(r[i])
    ensures forall i :: 0 <= i < |r| ==> !Before(end, r[i])
    ensures r != [] ==> FourDigitYear(r[|r| - 1]) && Before(end, NextDay(r[|r| - 1]))
  {
    var r := DatesThrough(FirstDay, end);
    assert forall i :: 0 <= i < |r| ==> !Before(r[i], FirstDay) by {
      forall i | 0 <= i < |r| ensures !Before(r[i], FirstDay) {
        if i > 0 {
          assert Before(r[0], r[i]);
        }
      }
    }
    r
  }

  /** Every day of `dates` has its file in the directory of `scope`. */
  predicate HoldsDays(st: Store, scope: Scope, dates: seq<Date>) {
    forall d :: d in dates && FourDigitYear(d) ==> Present(st, scope, FileName(d))
  }

  /** Every request is for the given scope kind. */
  predicate AllUsa(issued: seq<Target>) {
    forall i :: 0 <= i < |issued| ==> issued[i].scope == Usa
  }

  predicate AllStates(issued: seq<Target>) {
    forall i :: 0 <= i < |issued| ==> issued[i].scope.State?
  }

  /** Growing the cache keeps every file it held. */
  lemma {:induction false} GrowsTransitive(a: Store, b: Store, c: Store)
    requires Grows(a, b) && Grows(b, c)
    ensures Grows(a, c)
  {
  }

  lemma {:induction false} HoldsDaysGrows(st: Store, st': Store, scope: Scope, dates: seq<Date>)
    requires HoldsDays(st, scope, dates) && Grows(st, st')
    ensures HoldsDays(st', scope, dates)
  {
  }

  /** Requests issued against a larger cache were also missing from the
      smaller one. */
  lemma {:induction false} AllMissingShrinks(st: Store, st': Store, issued: seq<Target>)
    requires AllMissing(st', issued) && Grows(st, st')
    ensures AllMissing(st, issued)
  {
  }

  /** A finished USA run holds every day's file, and only USA files were
      requested. */
  lemma {:induction false} UsRunCovers(st: Store, dates: seq<Date>, fetch: Target -> bool)
    requires forall i :: 0 <= i < |dates| ==> FourDigitYear(dates[i])
    ensures Execute(st, UsPlan(dates), fetch).completed ==>
              HoldsDays(Execute(st, UsPlan(dates), fetch).store, Usa, dates)
    ensures AllUsa(Execute(st, UsPlan(dates), fetch).issued)
    ensures DaysIn(Execute(st, UsPlan(dates), fetch).issued, dates)
    ensures Scopes(UsPlan(dates)) <= {Usa}
  {
    var plan := UsPlan(dates);
    var r := Execute(st, plan, fetch);
    forall d | d in dates && r.completed
      ensures Present(r.store, Usa, FileName(d))
    {
      var i :| 0 <= i < |dates| && dates[i] == d;
      assert plan[i] == Target(Usa, d);
    }
    forall i | 0 <= i < |r.issued|
      ensures r.issued[i].scope == Usa && r.issued[i].date in dates
    {
      var k :| 0 <= k < |plan| && plan[k] == r.issued[i];
    }
  }

  /** The USA branch of `main`: a finished run holds a file for every day
      of `DATES`. */
  function FillUs(st: Store, end: Date, fetch: Target -> bool): (r: Run)
    requires FourDigitYear(end)
    ensures AllMissing(st, r.issued) && AllUsa(r.issued) && DaysIn(r.issued, Dates(end))
    ensures Grows(st, r.store) && OnlyRequested(st, r, fetch)
    ensures r.store.statesRoot == st.statesRoot
    ensures r.completed ==> HoldsDays(r.store, Usa, Dates(end))
    ensures DatesAscend(r.issued)
    ensures StopsAtFirstFailure(r, fetch)
    ensures KeepsFetched(r, fetch)
    ensures r.store.dirs.Keys <= st.dirs.Keys + {Usa}
  {
    var dates := Dates(end);
    var plan := UsPlan(dates);
    ExecuteKeepsFetched(st, plan, fetch);
    UsPlanShape(dates);
    ExecuteAscends(st, plan, fetch);
    ExecuteNeverOverwrites(st, plan, fetch);
    ExecuteStopsAtFailure(st, plan, fetch);
    UsRunCovers(st, dates, fetch);
    ExecuteOnlyRequested(st, plan, fetch);
    ExecuteKeepsDirs(st, plan, fetch);
    Execute(st, plan, fetch)
  }

  /** The directories of the listed states. */
  function StateDirs(codes: seq<string>): set<Scope> {
    set c | c in codes :: State(c)
  }

  /** The states plan covers every (day, listed state) pair and holds
      state targets only. */
  lemma {:induction false} StateRunCovers(st: Store, dates: seq<Date>, codes: seq<string>, fetch: Target -> bool)
    requires forall i :: 0 <= i < |dates| ==> FourDigitYear(dates[i])
    ensures Plannable(StatePlan(dates, codes))
    ensures Execute(st, StatePlan(dates, codes), fetch).completed ==>
              forall c :: c in codes ==> HoldsDays(Execute(st, StatePlan(dates, codes), fetch).store, State(c), dates)
    ensures AllStates(Execute(st, StatePlan(dates, codes), fetch).issued)
    ensures DaysIn(Execute(st, StatePlan(dates, codes), fetch).issued, dates)
    ensures CodesIn(Execute(st, StatePlan(dates, codes), fetch).issued, codes)
    ensures Scopes(StatePlan(dates, codes)) <= StateDirs(codes)
  {
    var plan := StatePlan(dates, codes);
    forall x | x in Scopes(plan)
      ensures x in StateDirs(codes)
    {
      var i :| 0 <= i < |plan| && plan[i].scope == x;
      StatePlanMembers(dates, codes, plan[i]);
    }
    forall i | 0 <= i < |plan|
      ensures FourDigitYear(plan[i].date)
    {
      StatePlanMembers(dates, codes, plan[i]);
    }
    var r := Execute(st, plan, fetch);
    forall d, c | d in dates && c in codes && r.completed
      ensures Present(r.store, State(c), FileName(d))
    {
      StatePlanMembers(dates, codes, Target(State(c), d));
      var k :| 0 <= k < |plan| && plan[k] == Target(State(c), d);
    }
    forall i | 0 <= i < |r.issued|
      ensures r.issued[i].scope.State? && r.issued[i].date in dates && r.issued[i].scope.code in codes
    {
      StatePlanMembers(dates, codes, r.issued[i]);
    }
  }

  /** The states branch of `main`: `states/` is created first, and a
      finished run holds a file for every (day, listed state) pair. */
  function FillStates(st: Store, end: Date, codes: seq<string>, fetch: Target -> bool): (r: Run)
    requires FourDigitYear(end)
    ensures AllMissing(st, r.issued) && AllStates(r.issued)
    ensures DaysIn(r.issued, Dates(end)) && CodesIn(r.issued, codes)
    ensures Grows(st, r.store) && OnlyRequested(st, r, fetch)
    ensures r.store.statesRoot
    ensures r.completed ==> forall c :: c in codes ==> HoldsDays(r.store, State(c), Dates(end))
    ensures DatesAscend(r.issued)
    ensures StopsAtFirstFailure(r, fetch)
    ensures KeepsFetched(r, fetch)
    ensures r.store.dirs.Keys <= st.dirs.Keys + StateDirs(codes)
  {
    var dates := Dates(end);
    var st0 := EnsureStatesRoot(st);
    StateRunCovers(st0, dates, codes, fetch);
    var plan := StatePlan(dates, codes);
    StatePlanAscends(dates, codes);
    ExecuteAscends(st0, plan, fetch);
    ExecuteNeverOverwrites(st0, plan, fetch);
    ExecuteStopsAtFailure(st0, plan, fetch);
    ExecuteKeepsDirs(st0, plan, fetch);
    ExecuteOnlyRequested(st0, plan, fetch);
    ExecuteKeepsFetched(st0, plan, fetch);
    SameFiles(st, st0, Execute(st0, plan, fetch), fetch);
    Execute(st0, plan, fetch)
  }

  /** Facts about a run that speak only of files read the same from two
      caches with the same directories. */
  lemma {:induction false} SameFiles(a: Store, b: Store, r: Run, fetch: Target -> bool)
    requires a.dirs == b.dirs
    ensures AllMissing(a, r.issued) == AllMissing(b, r.issued)
    ensures Grows(a, r.store) == Grows(b, r.store)
    ensures OnlyRequested(a, r, fetch) == OnlyRequested(b, r, fetch)
  {
    assert forall s, f :: Present(a, s, f) == Present(b, s, f);
  }

  /** `choice.lower() in ['yes', 'y']`. */
  predicate Accepts(answer: string)
    ensures Accepts(answer) <==>
              (|answer| == 1 && LowerChar(answer[0]) == 'y')
              || (|answer| == 3 && LowerChar(answer[0]) == 'y' && LowerChar(answer[1]) == 'e' && LowerChar(answer[2]) == 's')
  {
    Lower(answer) == "yes" || Lower(answer) == "y"
  }

  /** The prompt's answer is read without regard to letter case. */
  lemma {:induction false} AcceptsIgnoresCase(a: string, b: string)
    requires |a| == |b| && forall i :: 0 <= i < |a| ==> LowerChar(a[i]) == LowerChar(b[i])
    ensures Accepts(a) <==> Accepts(b)
  {
    assert Lower(a) == Lower(b);
  }

  /** Running the states branch after a finished USA run: requests stay
      fresh, files stay, and the stop rule carries over. */
  lemma {:induction false} ChainRuns(st: Store, us: Run, sts: Run, fetch: Target -> bool)
    requires us.completed
    requires AllMissing(st, us.issued) && Grows(st, us.store) && StopsAtFirstFailure(us, fetch)
    requires AllMissing(us.store, sts.issued) && Grows(us.store, sts.store) && StopsAtFirstFailure(sts, fetch)
    ensures AllMissing(st, us.issued + sts.issued)
    ensures StopsAtFirstFailure(Run(sts.store, us.issued + sts.issued, sts.completed), fetch)
  {
    var all := us.issued + sts.issued;
    forall i | |us.issued| <= i < |all|
      ensures all[i] == sts.issued[i - |us.issued|]
    {
    }
  }

  /** Chaining the two branches keeps every new file tied to a request and
      every request inside the range and the listed states. */
  lemma {:induction false} ChainFrame(st: Store, us: Run, sts: Run, fetch: Target -> bool, dates: seq<Date>, codes: seq<string>)
    requires OnlyRequested(st, us, fetch) && OnlyRequested(us.store, sts, fetch)
    requires DaysIn(us.issued, dates) && DaysIn(sts.issued, dates)
    requires CodesIn(us.issued, codes) && CodesIn(sts.issued, codes)
    requires KeepsFetched(us, fetch) && KeepsFetched(sts, fetch) && Grows(us.store, sts.store)
    ensures OnlyRequested(st, Run(sts.store, us.issued + sts.issued, sts.completed), fetch)
    ensures DaysIn(us.issued + sts.issued, dates) && CodesIn(us.issued + sts.issued, codes)
    ensures KeepsFetched(Run(sts.store, us.issued + sts.issued, sts.completed), fetch)
  {
    forall s, f | Present(sts.store, s, f) && !Present(st, s, f)
      ensures Requested(us.issued + sts.issued, s, f, fetch)
    {
      RequestedAppend(us.issued, sts.issued, s, f, fetch);
    }
    var all := us.issued + sts.issued;
    forall i | |us.issued| <= i < |all|
      ensures all[i] == sts.issued[i - |us.issued|]
    {
    }
  }

  /** `main`: the USA download when accepted, then the states download
      when accepted; a failed download ends everything. */
  function Query(st: Store, answerUs: string, answerStates: string, end: Date, codes: seq<string>,
                fetch: Target -> bool): (r: Run)
    requires FourDigitYear(end)
    ensures AllMissing(st, r.issued)
    ensures Grows(st, r.store)
    ensures r.completed && Accepts(answerUs) ==> HoldsDays(r.store, Usa, Dates(end))
    ensures r.completed && Accepts(answerStates) ==>
              forall c :: c in codes ==> HoldsDays(r.store, State(c), Dates(end))
    ensures r.completed && Accepts(answerStates) ==> r.store.statesRoot
    ensures !Accepts(answerUs) && !Accepts(answerStates) ==> r == Run(st, [], true)
    ensures StopsAtFirstFailure(r, fetch)
    // frame: new files were requested, and requests stay inside `DATES`,
    // the listed states and the accepted branches
    ensures OnlyRequested(st, r, fetch)
    ensures DaysIn(r.issued, Dates(end)) && CodesIn(r.issued, codes)
    ensures !Accepts(answerUs) ==> AllStates(r.issued)
    ensures !Accepts(answerStates) ==> AllUsa(r.issued) && r.store.statesRoot == st.statesRoot
    // order: the states half starts only once the USA half has finished
    ensures Accepts(answerUs) && !AllUsa(r.issued) ==> HoldsDays(r.store, Usa, Dates(end))
    ensures Accepts(answerUs) && r.store.statesRoot && !st.statesRoot ==> HoldsDays(r.store, Usa, Dates(end))
    // partial progress: every file `curl` produced stays cached, and only
    // the accepted branches' directories can appear
    ensures KeepsFetched(r, fetch)
    ensures r.store.dirs.Keys <= st.dirs.Keys + (if Accepts(answerUs) then {Usa} else {})
                                              + (if Accepts(answerStates) then StateDirs(codes) else {})
  {
    var us := if Accepts(answerUs) then FillUs(st, end, fetch) else Run(st, [], true);
    if !us.completed || !Accepts(answerStates) then us
    else
      var sts := FillStates(us.store, end, codes, fetch);
      QueryChain(st, answerUs, end, codes, fetch, us, sts);
      QueryChainFrame(st, answerUs, end, codes, fetch, us, sts);
      Chained(us, sts)
  }

  /** The states run appended to the USA run: the final cache, both
      request logs, and whether the states run finished. */
  function Chained(us: Run, sts: Run): Run {
    Run(sts.store, us.issued + sts.issued, sts.completed)
  }

  /** `main` when the states branch runs: the USA half (or nothing, when
      declined) finished, then the states half ran on its cache. */
  lemma {:induction false} QueryChain(st: Store, answerUs: string, end: Date, codes: seq<string>,
                                      fetch: Target -> bool, us: Run, sts: Run)
    requires FourDigitYear(end)
    requires us == (if Accepts(answerUs) then FillUs(st, end, fetch) else Run(st, [], true)) && us.completed
    requires sts == FillStates(us.store, end, codes, fetch)
    ensures AllMissing(st, Chained(us, sts).issued) && Grows(st, Chained(us, sts).store)
    ensures Accepts(answerUs) ==> HoldsDays(Chained(us, sts).store, Usa, Dates(end))
    ensures Chained(us, sts).completed ==>
              forall c :: c in codes ==> HoldsDays(Chained(us, sts).store, State(c), Dates(end))
    ensures Chained(us, sts).store.statesRoot
    ensures StopsAtFirstFailure(Chained(us, sts), fetch)
  {
    AllMissingShrinks(st, us.store, sts.issued);
    ChainRuns(st, us, sts, fetch);
    GrowsTransitive(st, us.store, sts.store);
    assert Accepts(answerUs) ==> HoldsDays(sts.store, Usa, Dates(end)) by {
      if Accepts(answerUs) {
        HoldsDaysGrows(us.store, sts.store, Usa, Dates(end));
      }
    }
  }

  /** The frame of `main` when the states branch runs. */
  lemma {:induction false} QueryChainFrame(st: Store, answerUs: string, end: Date, codes: seq<string>,
                                           fetch: Target -> bool, us: Run, sts: Run)
    requires FourDigitYear(end)
    requires us == (if Accepts(answerUs) then FillUs(st, end, fetch) else Run(st, [], true)) && us.completed
    requires sts == FillStates(us.store, end, codes, fetch)
    ensures OnlyRequested(st, Chained(us, sts), fetch)
    ensures DaysIn(Chained(us, sts).issued, Dates(end)) && CodesIn(Chained(us, sts).issued, codes)
    ensures !Accepts(answerUs) ==> AllStates(Chained(us, sts).issued)
    ensures KeepsFetched(Chained(us, sts), fetch)
    ensures Chained(us, sts).store.dirs.Keys <= st.dirs.Keys + (if Accepts(answerUs) then {Usa} else {}) + StateDirs(codes)
  {
    ChainFrame(st, us, sts, fetch, Dates(end), codes);
    assert !Accepts(answerUs) ==> us.issued + sts.issued == sts.issued;
  }


  /** A USA run over a cache that already holds every day issues nothing. */
  lemma {:induction false} FillUsIdle(st: Store, end: Date, fetch: Target -> bool)
    requires FourDigitYear(end) && HoldsDays(st, Usa, Dates(end))
    ensures FillUs(st, end, fetch) == Run(st, [], true)
  {
    var dates := Dates(end);
    var plan := UsPlan(dates);
    forall i | 0 <= i < |plan|
      ensures Present(st, plan[i].scope, FileName(plan[i].date))
    {
      assert plan[i].date == dates[i];
    }
    AllPresentIsIdle(st, plan, fetch);
  }

  /** A states run over a cache that already holds every (day, listed
      state) file, with `states/` in place, issues nothing. */
  lemma {:induction false} FillStatesIdle(st: Store, end: Date, codes: seq<string>, fetch: Target -> bool)
    requires FourDigitYear(end) && st.statesRoot
    requires forall c :: c in codes ==> HoldsDays(st, State(c), Dates(end))
    ensures FillStates(st, end, codes, fetch) == Run(st, [], true)
  {
    var dates := Dates(end);
    var plan := StatePlan(dates, codes);
    StateRunCovers(st, dates, codes, fetch);
    forall i | 0 <= i < |plan|
      ensures Present(st, plan[i].scope, FileName(plan[i].date))
    {
      StatePlanMembers(dates, codes, plan[i]);
      assert HoldsDays(st, State(plan[i].scope.code), dates);
    }
    AllPresentIsIdle(st, plan, fetch);
  }

  /** `main` over a cache that already holds every file the accepted
      branches need (and `states/` when that branch is accepted) issues
      nothing and changes nothing. */
  lemma {:induction false} QueryIdle(st: Store, answerUs: string, answerStates: string, end: Date,
                                     codes: seq<string>, fetch: Target -> bool)
    requires FourDigitYear(end)
    requires Accepts(answerUs) ==> HoldsDays(st, Usa, Dates(end))
    requires Accepts(answerStates) ==> st.statesRoot && forall c :: c in codes ==> HoldsDays(st, State(c), Dates(end))
    ensures Query(st, answerUs, answerStates, end, codes, fetch) == Run(st, [], true)
  {
    var idle := Run(st, [], true);
    if Accepts(answerUs) {
      FillUsIdle(st, end, fetch);
    }
    var us := if Accepts(answerUs) then FillUs(st, end, fetch) else idle;
    assert us == idle;
    if Accepts(answerStates) {
      FillStatesIdle(st, end, codes, fetch);
      var sts := FillStates(st, end, codes, fetch);
      assert sts == idle && us.issued + sts.issued == [];
    }
  }

  /** Running `main` again, with the same answers, after a run that
      finished issues zero requests and changes nothing, whatever the
      network does the second time. */
  lemma {:induction false} QueryRerunIsIdle(st: Store, answerUs: string, answerStates: string, end: Date,
                                               codes: seq<string>, fetch: Target -> bool, fetch': Target -> bool)
    requires FourDigitYear(end)
    requires Query(st, answerUs, answerStates, end, codes, fetch).completed
    ensures Query(Query(st, answerUs, answerStates, end, codes, fetch).store, answerUs, answerStates, end, codes, fetch')
            == Run(Query(st, answerUs, answerStates, end, codes, fetch).store, [], true)
  {
    var st' := Query(st, answerUs, answerStates, end, codes, fetch).store;
    QueryIdle(st', answerUs, answerStates, end, codes, fetch');
  }
}

=== FILE: loader.dfy ===
/** The time-series loader: `load_df_us` and `load_df_state`. Each cached
    snapshot file has already been read as one record; the loader drops
    records without a date, turns the date token into a calendar date,
    sorts by date and optionally blanks out negative counts. */
module Loader {
  import opened Wrappers
  import opened Text
  import opened Calendar

  /** The six count and delta columns subject to cleaning. */
  datatype Field = Positive | Negative | Death | PositiveIncrease | NegativeIncrease | DeathIncrease

  /** The count columns of one snapshot; `None` is an absent key or NaN. */
  datatype Counts = Counts(
    positive: Option<int>,
    negative: Option<int>,
    death: Option<int>,
    positiveIncrease: Option<int>,
    negativeIncrease: Option<int>,
    deathIncrease: Option<int>)
  {
    function Get(f: Field): Option<int> {
      match f
      case Positive => positive
      case Negative => negative
      case Death => death
      case PositiveIncrease => positiveIncrease
      case NegativeIncrease => negativeIncrease
      case DeathIncrease => deathIncrease
    }
  }

  /** One cached snapshot as read from its JSON file. `date` is the raw
      integer token (`YYYYMMDD`); every other column, including the
      auxiliary timestamps, is kept as opaque text. */
  datatype Snapshot = Snapshot(date: Option<int>, counts: Counts, other: map<string, string>)

  /** One row of the loaded table. */
  datatype Row = Row(date: Date, counts: Counts, other: map<string, string>)

  datatype LoadError =
    | InvalidState        // `IOError('invalid state name provided')`
    | NoDateColumn        // pandas `KeyError`: no record carries a `date`
    | MalformedDate(token: int)  // pandas cannot parse the `Y-M-D` text

  predicate HasNegative(v: Option<int>) {
    v.Some? && v.value < 0
  }

  /** `dropna(subset=['date'])`: keep exactly the records that have a date,
      each as often as it occurs. */
  function DropUndated(files: seq<Snapshot>): (r: seq<Snapshot>)
    ensures forall i :: 0 <= i < |r| ==> r[i].date.Some? && r[i] in files
    ensures forall i :: 0 <= i < |files| && files[i].date.Some? ==> files[i] in r
    ensures forall x :: multiset(r)[x] == (if x.date.Some? then multiset(files)[x] else 0)
  {
    if files == [] then []
    else
      assert files == [files[0]] + files[1..];
      var rest := DropUndated(files[1..]);
      if files[0].date.Some? then [files[0]] + rest else rest
  }

  /** Turns every record's token into a date with `parse`, failing on the
      first token that names no date. */
  function ParseTokens(dated: seq<Snapshot>, parse: int -> Option<Date>): (r: Result<seq<Row>, LoadError>)
    requires forall i :: 0 <= i < |dated| ==> dated[i].date.Some?
    ensures r.Failure? ==> exists i :: 0 <= i < |dated| && r.error == MalformedDate(dated[i].date.value)
                                       && parse(dated[i].date.value).None?
    ensures r.Success? ==> |r.value| == |dated|
    ensures r.Success? ==> forall i :: 0 <= i < |dated| ==>
              Some(r.value[i].date) == parse(dated[i].date.value)
              && r.value[i].counts == dated[i].counts && r.value[i].other == dated[i].other
  {
    if dated == [] then Success([])
    else
      var x := dated[0];
      assert forall i :: 1 <= i < |dated| ==> dated[i] == dated[1..][i - 1];
      match parse(x.date.value)
      case None => Failure(MalformedDate(x.date.value))
      case Some(d) =>
        match ParseTokens(dated[1..], parse)
        case Failure(e) => Failure(e)
        case Success(rows) => Success([Row(d, x.counts, x.other)] + rows)
  }

  /** `'%s-%s-%s' % (str(x)[0:4], str(x)[4:6], str(x)[6:8])` followed by
      `pandas.DatetimeIndex`: every token must name a real date, otherwise
      the whole load raises. */
  function ParseDates(dated: seq<Snapshot>): (r: Result<seq<Row>, LoadError>)
    requires forall i :: 0 <= i < |dated| ==> dated[i].date.Some?
    ensures r.Failure? ==> exists i :: 0 <= i < |dated| && r.error == MalformedDate(dated[i].date.value)
                                       && DateOfToken(dated[i].date.value).None?
    ensures r.Success? ==> |r.value| == |dated|
    ensures r.Success? ==> forall i :: 0 <= i < |dated| ==>
              Some(r.value[i].date) == DateOfToken(dated[i].date.value)
              && r.value[i].counts == dated[i].counts && r.value[i].other == dated[i].other
  {
    ParseTokens(dated, DateOfToken)
  }

  /** The parse succeeds exactly when every token names a real date. */
  lemma {:induction false} ParseDatesSucceeds(dated: seq<Snapshot>)
    requires forall i :: 0 <= i < |dated| ==> dated[i].date.Some?
    ensures ParseDates(dated).Success? <==> forall i :: 0 <= i < |dated| ==> DateOfToken(dated[i].date.value).Some?
  {
    var r := ParseDates(dated);
    if r.Success? {
      forall i | 0 <= i < |dated|
        ensures DateOfToken(dated[i].date.value).Some?
      {
        assert Some(r.value[i].date) == DateOfToken(dated[i].date.value);
      }
    }
  }

  /** Rows in non-decreasing date order. */
  predicate SortedByDate(rows: seq<Row>) {
    forall i, j :: 0 <= i < j < |rows| ==> !Before(rows[j].date, rows[i].date)
  }

  /** Inserts `x` into a sorted table after every row dated earlier. */
  function Insert(x: Row, rows: seq<Row>): (r: seq<Row>)
    requires SortedByDate(rows)
    ensures SortedByDate(r)
    ensures multiset(r) == multiset(rows) + multiset{x}
    ensures forall k :: 0 <= k < |r| ==> r[k] == x || r[k] in rows
  {
    if rows == [] || !Before(rows[0].date, x.date) then [x] + rows
    else
      assert rows == [rows[0]] + rows[1..];
      var rest := Insert(x, rows[1..]);
      assert forall k :: 0 <= k < |rest| ==> !Before(rest[k].date, rows[0].date);
      [rows[0]] + rest
  }

  /** `sort_values(by=['date'])`. pandas' default sort is not stable, so
      only order and content are promised, not the order of equal dates. */
  function SortByDate(rows: seq<Row>): (r: seq<Row>)
    ensures SortedByDate(r)
    ensures multiset(r) == multiset(rows)
  {
    if rows == [] then []
    else
      assert rows == [rows[0]] + rows[1..];
      Insert(rows[0], SortByDate(rows[1..]))
  }

  /** One cell after cleaning: a negative becomes unknown (NaN). */
  function CleanValue(v: Option<int>): Option<int> {
    if HasNegative(v) then None else v
  }

  function CleanCounts(c: Counts): (r: Counts)
    ensures forall f :: r.Get(f) == CleanValue(c.Get(f))
  {
    Counts(CleanValue(c.positive), CleanValue(c.negative), CleanValue(c.death),
           CleanValue(c.positiveIncrease), CleanValue(c.negativeIncrease), CleanValue(c.deathIncrease))
  }

  function CleanRow(x: Row, removeNegatives: bool): Row {
    if removeNegatives then Row(x.date, CleanCounts(x.counts), x.other) else x
  }

  /** The `remove_negative_cases_deaths` step over a whole table. */
  function CleanTable(rows: seq<Row>, removeNegatives: bool): (r: seq<Row>)
    ensures |r| == |rows|
    ensures forall i :: 0 <= i < |r| ==> r[i].date == rows[i].date && r[i].other == rows[i].other
    ensures forall i, f :: 0 <= i < |r| ==>
              r[i].counts.Get(f) == (if removeNegatives && HasNegative(rows[i].counts.Get(f)) then None
                                     else rows[i].counts.Get(f))
  {
    if rows == [] then [] else [CleanRow(rows[0], removeNegatives)] + CleanTable(rows[1..], removeNegatives)
  }

  /** After cleaning, none of the six columns holds a negative value. */
  lemma {:induction false} CleanLeavesNoNegatives(rows: seq<Row>)
    ensures forall i, f :: 0 <= i < |rows| ==> !HasNegative(CleanTable(rows, true)[i].counts.Get(f))
  {
  }

  /** Cleaning blanks a value out rather than zeroing it: a zero in the
      output was a zero in the input, and non-negative values and unknowns
      are untouched. */
  lemma {:induction false} CleanNeverZeroFills(rows: seq<Row>, removeNegatives: bool, i: int, f: Field)
    requires 0 <= i < |rows|
    ensures CleanTable(rows, removeNegatives)[i].counts.Get(f) == Some(0) ==> rows[i].counts.Get(f) == Some(0)
    ensures !HasNegative(rows[i].counts.Get(f)) ==> CleanTable(rows, removeNegatives)[i].counts.Get(f) == rows[i].counts.Get(f)
    ensures HasNegative(rows[i].counts.Get(f)) && removeNegatives ==> CleanTable(rows, removeNegatives)[i].counts.Get(f).None?
  {
  }

  /** Row equality from the six count columns and the other columns. */
  lemma {:induction false} RowExt(a: Row, b: Row)
    requires a.date == b.date && a.other == b.other
    requires forall f :: a.counts.Get(f) == b.counts.Get(f)
    ensures a == b
  {
    assert a.counts.Get(Positive) == b.counts.Get(Positive);
    assert a.counts.Get(Negative) == b.counts.Get(Negative);
    assert a.counts.Get(Death) == b.counts.Get(Death);
    assert a.counts.Get(PositiveIncrease) == b.counts.Get(PositiveIncrease);
    assert a.counts.Get(NegativeIncrease) == b.counts.Get(NegativeIncrease);
    assert a.counts.Get(DeathIncrease) == b.counts.Get(DeathIncrease);
  }

  /** With the flag off the table is returned unchanged, negatives included. */
  lemma {:induction false} CleanDisabledIsIdentity(rows: seq<Row>)
    ensures CleanTable(rows, false) == rows
  {
    var r := CleanTable(rows, false);
    forall i | 0 <= i < |rows|
      ensures r[i] == rows[i]
    {
      RowExt(r[i], rows[i]);
    }
  }

  /** Cleaning an already cleaned table changes nothing. */
  lemma {:induction false} CleanIdempotent(rows: seq<Row>, removeNegatives: bool)
    ensures CleanTable(CleanTable(rows, removeNegatives), removeNegatives) == CleanTable(rows, removeNegatives)
  {
    var once := CleanTable(rows, removeNegatives);
    var twice := CleanTable(once, removeNegatives);
    forall i | 0 <= i < |rows|
      ensures twice[i] == once[i]
    {
      RowExt(twice[i], once[i]);
    }
  }

  lemma {:induction false} CleanKeepsSorted(rows: seq<Row>, removeNegatives: bool)
    requires SortedByDate(rows)
    ensures SortedByDate(CleanTable(rows, removeNegatives))
  {
  }

  lemma {:induction false} CleanCons(x: Row, rows: seq<Row>, removeNegatives: bool)
    ensures CleanTable([x] + rows, removeNegatives) == [CleanRow(x, removeNegatives)] + CleanTable(rows, removeNegatives)
  {
    assert ([x] + rows)[1..] == rows;
  }

  /** Cleaning looks only at the counts and sorting only at the dates, so
      the two commute. */
  lemma {:induction false} CleanCommutesWithInsert(x: Row, rows: seq<Row>, removeNegatives: bool)
    requires SortedByDate(rows)
    ensures SortedByDate(CleanTable(rows, removeNegatives))
    ensures CleanTable(Insert(x, rows), removeNegatives)
            == Insert(CleanRow(x, removeNegatives), CleanTable(rows, removeNegatives))
  {
    CleanKeepsSorted(rows, removeNegatives);
    var cx := CleanRow(x, removeNegatives);
    var cleaned := CleanTable(rows, removeNegatives);
    if rows == [] {
      CleanCons(x, [], removeNegatives);
    } else if !Before(rows[0].date, x.date) {
      CleanCons(x, rows, removeNegatives);
      assert !Before(cleaned[0].date, cx.date);
    } else {
      var tail := rows[1..];
      assert rows == [rows[0]] + tail;
      assert SortedByDate(tail);
      CleanCommutesWithInsert(x, tail, removeNegatives);
      assert Insert(x, rows) == [rows[0]] + Insert(x, tail);
      CleanCons(rows[0], Insert(x, tail), removeNegatives);
      CleanCons(rows[0], tail, removeNegatives);
      assert cleaned == [CleanRow(rows[0], removeNegatives)] + CleanTable(tail, removeNegatives);
      assert Before(cleaned[0].date, cx.date);
      assert cleaned[1..] == CleanTable(tail, removeNegatives);
    }
  }

  lemma {:induction false} CleanCommutesWithSort(rows: seq<Row>, removeNegatives: bool)
    ensures CleanTable(SortByDate(rows), removeNegatives) == SortByDate(CleanTable(rows, removeNegatives))
  {
    if rows != [] {
      CleanCommutesWithSort(rows[1..], removeNegatives);
      CleanCommutesWithInsert(rows[0], SortByDate(rows[1..]), removeNegatives);
    }
  }

  lemma {:induction false} DropUndatedEmpty(files: seq<Snapshot>)
    ensures DropUndated(files) == [] <==> forall i :: 0 <= i < |files| ==> files[i].date.None?
  {
    var dated := DropUndated(files);
    if dated != [] {
      assert dated[0] in files;
    }
  }

  /** The date parse succeeds exactly when every dated record's token
      names a real date. */
  lemma {:induction false} DatedTokensParse(files: seq<Snapshot>)
    ensures ParseDates(DropUndated(files)).Success? <==>
              forall i :: 0 <= i < |files| && files[i].date.Some? ==> DateOfToken(files[i].date.value).Some?
  {
    var dated := DropUndated(files);
    ParseDatesSucceeds(dated);
    if ParseDates(dated).Success? {
      forall i | 0 <= i < |files| && files[i].date.Some?
        ensures DateOfToken(files[i].date.value).Some?
      {
        assert files[i] in dated;
      }
    } else {
      var k :| 0 <= k < |dated| && DateOfToken(dated[k].date.value).None?;
      assert dated[k] in files;
    }
  }

  /** `sort_values(by=['date'])` followed by the optional cleaning: a
      date-ordered permutation of the cleaned rows. */
  function SortAndClean(rows: seq<Row>, removeNegatives: bool): (r: seq<Row>)
    ensures SortedByDate(r)
    ensures |r| == |rows|
    ensures multiset(r) == multiset(CleanTable(rows, removeNegatives))
    ensures removeNegatives ==> forall i, f :: 0 <= i < |r| ==> !HasNegative(r[i].counts.Get(f))
  {
    var sorted := SortByDate(rows);
    assert |sorted| == |multiset(sorted)| == |multiset(rows)| == |rows|;
    CleanCommutesWithSort(rows, removeNegatives);
    CleanTable(sorted, removeNegatives)
  }

  /** Both loaders after the state check: drop undated records, parse
      dates, sort, then clean when asked. */
  function LoadSnapshots(files: seq<Snapshot>, removeNegatives: bool): (r: Result<seq<Row>, LoadError>)
    ensures r == Failure(NoDateColumn) <==> forall i :: 0 <= i < |files| ==> files[i].date.None?
    ensures r.Success? <==>
              (exists i :: 0 <= i < |files| && files[i].date.Some?)
              && forall i :: 0 <= i < |files| && files[i].date.Some? ==> DateOfToken(files[i].date.value).Some?
    ensures r.Success? ==> SortedByDate(r.value)
    ensures r.Success? ==> |r.value| == |DropUndated(files)|
    ensures r.Success? ==>
              var parsed := ParseDates(DropUndated(files));
              parsed.Success? && multiset(r.value) == multiset(CleanTable(parsed.value, removeNegatives))
    ensures r.Success? && removeNegatives ==>
              forall i, f :: 0 <= i < |r.value| ==> !HasNegative(r.value[i].counts.Get(f))
  {
    var dated := DropUndated(files);
    DropUndatedEmpty(files);
    DatedTokensParse(files);
    if dated == [] then
      Failure(NoDateColumn)
    else
      match ParseDates(dated)
      case Failure(e) =>
        Failure(e)
      case Success(rows) =>
        Success(SortAndClean(rows, removeNegatives))
  }

  /** `load_df_us`: all snapshots of the `us/` directory. */
  function LoadUs(usFiles: seq<Snapshot>, removeNegatives: bool): (r: Result<seq<Row>, LoadError>)
    ensures r.Failure? ==> r.error != InvalidState
    ensures r == Failure(NoDateColumn) <==> forall i :: 0 <= i < |usFiles| ==> usFiles[i].date.None?
    ensures r.Success? <==>
              (exists i :: 0 <= i < |usFiles| && usFiles[i].date.Some?)
              && forall i :: 0 <= i < |usFiles| && usFiles[i].date.Some? ==> DateOfToken(usFiles[i].date.value).Some?
    ensures r.Success? ==> SortedByDate(r.value) && |r.value| == |DropUndated(usFiles)|
    ensures r.Success? ==>
              var parsed := ParseDates(DropUndated(usFiles));
              parsed.Success? && multiset(r.value) == multiset(CleanTable(parsed.value, removeNegatives))
    ensures r.Success? && removeNegatives ==>
              forall i, f :: 0 <= i < |r.value| ==> !HasNegative(r.value[i].counts.Get(f))
  {
    LoadSnapshots(usFiles, removeNegatives)
  }

  /** A name the glob over the `states` directory reports: non-empty, not
      hidden, no path separator. */
  predicate Listed(name: string) {
    |name| > 0 && name[0] != '.' && '/' !in name
  }

  /** The state check of `load_df_state`: the upper-cased code must be an
      entry of the `states/` directory as globbed. */
  predicate KnownState(state: string, statesDir: map<string, seq<Snapshot>>)
    ensures KnownState(state, statesDir) ==> Listed(state) && Upper(state) in statesDir
  {
    Upper(state) in statesDir && Listed(Upper(state))
  }

  /** `load_df_state`. `statesDir` maps each entry of `states/` to the
      snapshots read from it. */
  function LoadState(state: string, statesDir: map<string, seq<Snapshot>>, removeNegatives: bool)
    : (r: Result<seq<Row>, LoadError>)
    ensures r == Failure(InvalidState) <==> !KnownState(state, statesDir)
    ensures KnownState(state, statesDir) ==> r == LoadSnapshots(statesDir[Upper(state)], removeNegatives)
  {
    if !KnownState(state, statesDir) then Failure(InvalidState)
    else LoadSnapshots(statesDir[Upper(state)], removeNegatives)
  }

  /** The state check reads directory names only: an unknown state is
      rejected whatever the snapshot files contain. */
  lemma {:induction false} RejectsBeforeReading(state: string, a: map<string, seq<Snapshot>>, b: map<string, seq<Snapshot>>, flag: bool)
    requires a.Keys == b.Keys && !KnownState(state, a)
    ensures LoadState(state, a, flag) == LoadState(state, b, flag) == Failure(InvalidState)
  {
  }

  /** The state code is matched case-insensitively. */
  lemma {:induction false} StateCodeCaseInsensitive(s: string, t: string, statesDir: map<string, seq<Snapshot>>, flag: bool)
    requires |s| == |t| && forall i :: 0 <= i < |s| ==> UpperChar(s[i]) == UpperChar(t[i])
    ensures LoadState(s, statesDir, flag) == LoadState(t, statesDir, flag)
  {
    assert Upper(s) == Upper(t);
  }
}

=== FILE: text.dfy ===
/** Decimal digits and ASCII case mapping: the string conversions the
    source relies on (`str(int)`, zero-padded `%Y%m%d` fields,
    `str.upper()` / `str.lower()` on state codes and prompt answers). */
module Text {

  predicate IsDigit(c: char) {
    '0' <= c <= '9'
  }

  predicate AllDigits(s: string) {
    forall i :: 0 <= i < |s| ==> IsDigit(s[i])
  }

  function DigitValue(c: char): (n: nat)
    requires IsDigit(c)
    ensures n < 10
  {
    c as int - '0' as int
  }

  function DigitChar(n: nat): (c: char)
    requires n < 10
    ensures IsDigit(c) && DigitValue(c) == n
  {
    "0123456789"[n]
  }

  function Pow10(k: nat): (p: nat)
    ensures p >= 1
  {
    if k == 0 then 1 else 10 * Pow10(k - 1)
  }

  /** The value of a string of decimal digits (most significant first). */
  function ParseDigits(s: string): nat
    requires AllDigits(s)
  {
    if s == [] then 0 else ParseDigits(s[..|s| - 1]) * 10 + DigitValue(s[|s| - 1])
  }

  /** The last `k` decimal digits of `n`, zero-padded to width `k`. */
  function Digits(n: nat, k: nat): (s: string)
    ensures |s| == k && AllDigits(s)
  {
    if k == 0 then [] else Digits(n / 10, k - 1) + [DigitChar(n % 10)]
  }

  /** Python's `str(n)` for a non-negative integer: no leading zeros. */
  function NaturalString(n: nat): (s: string)
    ensures |s| > 0 && AllDigits(s)
    ensures |s| > 1 ==> s[0] != '0'
  {
    if n < 10 then [DigitChar(n)] else NaturalString(n / 10) + [DigitChar(n % 10)]
  }

  /** Python's `str(n)` for any integer. */
  function DecimalString(n: int): (s: string)
    ensures |s| > 0
    ensures n < 0 <==> s[0] == '-'
    ensures var t := if n < 0 then s[1..] else s;
              |t| > 0 && AllDigits(t) && (|t| > 1 ==> t[0] != '0')
              && ParseDigits(t) == (if n < 0 then -n else n)
  {
    ParseNaturalString(if n < 0 then -n else n);
    if n < 0 then "-" + NaturalString(-n) else NaturalString(n)
  }

  /** Python's slice `s[i:j]` for 0 <= i <= j: out-of-range bounds are
      clamped to the length instead of raising. */
  function Slice(s: string, i: nat, j: nat): (t: string)
    requires i <= j
    ensures |t| == (if j <= |s| then j - i else if i <= |s| then |s| - i else 0)
    ensures forall k :: 0 <= k < |t| ==> t[k] == s[i + k]
  {
    if j <= |s| then s[i..j] else if i <= |s| then s[i..] else []
  }

  function UpperChar(c: char): char {
    if 'a' <= c <= 'z' then (c as int - 'a' as int + 'A' as int) as char else c
  }

  function LowerChar(c: char): char {
    if 'A' <= c <= 'Z' then (c as int - 'A' as int + 'a' as int) as char else c
  }

  /** `str.upper()` restricted to ASCII letters. */
  function Upper(s: string): (t: string)
    ensures |t| == |s|
    ensures forall i :: 0 <= i < |s| ==> t[i] == UpperChar(s[i])
  {
    seq(|s|, i requires 0 <= i < |s| => UpperChar(s[i]))
  }

  /** `str.lower()` restricted to ASCII letters. */
  function Lower(s: string): (t: string)
    ensures |t| == |s|
    ensures forall i :: 0 <= i < |s| ==> t[i] == LowerChar(s[i])
  {
    seq(|s|, i requires 0 <= i < |s| => LowerChar(s[i]))
  }

  /** Upper-casing twice changes nothing more, and lower-casing forgets
      an earlier upper-casing. */
  lemma {:induction false} CaseMapsSettle(s: string)
    ensures Upper(Upper(s)) == Upper(s)
    ensures Lower(Upper(s)) == Lower(s)
    ensures Lower(Lower(s)) == Lower(s)
  {
  }

  lemma {:induction false} DigitRoundTrip(c: char)
    requires IsDigit(c)
    ensures DigitChar(DigitValue(c)) == c
  {
  }

  /** Reading back `str(n)` yields `n`. */
  lemma {:induction false} ParseNaturalString(n: nat)
    ensures ParseDigits(NaturalString(n)) == n
  {
    if n >= 10 {
      var s := NaturalString(n);
      assert s[..|s| - 1] == NaturalString(n / 10);
      ParseNaturalString(n / 10);
    }
  }

  /** The value of a digit string grows with each more significant digit. */
  lemma {:induction false} ParseConcat(a: string, b: string)
    requires AllDigits(a) && AllDigits(b)
    ensures AllDigits(a + b)
    ensures ParseDigits(a + b) == ParseDigits(a) * Pow10(|b|) + ParseDigits(b)
  {
    if b == [] {
      assert a + b == a;
    } else {
      var b' := b[..|b| - 1];
      assert (a + b)[..|a + b| - 1] == a + b';
      ParseConcat(a, b');
      var pa, pb', d, k := ParseDigits(a), ParseDigits(b'), DigitValue(b[|b| - 1]), Pow10(|b'|);
      assert ParseDigits(a + b) == (pa * k + pb') * 10 + d;
      assert Pow10(|b|) == k * 10;
      assert ParseDigits(b) == pb' * 10 + d;
      MulAssoc(pa, k);
    }
  }

  lemma {:induction false} MulAssoc(x: nat, y: nat)
    ensures (x * y) * 10 == x * (y * 10)
  {
  }

  /** A digit string of width `k` is worth less than `10^k`. */
  lemma {:induction false} ParseBound(s: string)
    requires AllDigits(s)
    ensures ParseDigits(s) < Pow10(|s|)
  {
    if s != [] {
      ParseBound(s[..|s| - 1]);
    }
  }

  /** A digit string that does not start with `0` has all its digits
      significant. */
  lemma {:induction false} ParseLeadingBound(s: string)
    requires AllDigits(s) && |s| > 0 && s[0] != '0'
    ensures ParseDigits(s) >= Pow10(|s| - 1)
  {
    if |s| > 1 {
      var p := s[..|s| - 1];
      assert p[0] == s[0];
      ParseLeadingBound(p);
    }
  }

  /** A string of digits with no leading zero is exactly `str` of its value. */
  lemma {:induction false} NaturalStringOfParse(s: string)
    requires AllDigits(s) && |s| > 0
    requires |s| > 1 ==> s[0] != '0'
    ensures NaturalString(ParseDigits(s)) == s
  {
    var init := s[..|s| - 1];
    if |s| == 1 {
      assert init == [];
      DigitRoundTrip(s[0]);
    } else {
      var last := s[|s| - 1];
      var p, d := ParseDigits(init), DigitValue(last);
      var n := ParseDigits(s);
      assert n == p * 10 + d;
      ParsePositive(init);
      assert n >= 10 && n / 10 == p && n % 10 == d;
      NaturalStringOfParse(init);
      DigitRoundTrip(last);
      assert NaturalString(n) == NaturalString(p) + [DigitChar(d)];
      assert s == init + [last];
    }
  }

  /** A digit string that starts with a non-zero digit has a positive value. */
  lemma {:induction false} ParsePositive(s: string)
    requires AllDigits(s) && |s| > 0 && s[0] != '0'
    ensures ParseDigits(s) > 0
  {
    if |s| > 1 {
      ParsePositive(s[..|s| - 1]);
    }
  }

  /** Zero-padded formatting followed by parsing gives the number back. */
  lemma {:induction false} ParseDigitsOf(n: nat, k: nat)
    requires n < Pow10(k)
    ensures ParseDigits(Digits(n, k)) == n
  {
    if k > 0 {
      var s := Digits(n, k);
      assert s[..|s| - 1] == Digits(n / 10, k - 1);
      ParseDigitsOf(n / 10, k - 1);
    }
  }

  /** Parsing a digit string and formatting it at the same width gives the
      string back (leading zeros included). */
  lemma {:induction false} DigitsOfParse(s: string)
    requires AllDigits(s)
    ensures Digits(ParseDigits(s), |s|) == s
  {
    if s != [] {
      var init, last := s[..|s| - 1], s[|s| - 1];
      var p, d := ParseDigits(init), DigitValue(last);
      var n := ParseDigits(s);
      assert n == p * 10 + d;
      assert n / 10 == p && n % 10 == d;
      DigitsOfParse(init);
      DigitRoundTrip(last);
      assert Digits(n, |s|) == Digits(p, |init|) + [DigitChar(d)];
      assert s == init + [last];
    }
  }
}

=== FILE: wrappers.dfy ===
/** Failure-carrying datatypes shared by the loader and the calendar. */
module Wrappers {

  /** A value that may be missing: a JSON key that is absent, or a cell that
      pandas holds as NaN ("unknown"). */
  datatype Option<+T> = None | Some(value: T)

  /** The outcome of an operation that raises in the source. */
  datatype Result<+R, +E> = Success(value: R) | Failure(error: E)
}
